=== FILE: README.md ===
# Journal workspace and page-state model

A Dafny model of the persistence and state logic of a client-side journaling
application. Users log in, write multi-page entries, and save them locally.

- **Workspace manager** (`workspace.dfy`, module `Workspace`). It works over
  an abstract store with two tables. The first holds workspaces by id; each
  has an owner, a name and a list of page numbers. The second holds content
  records; each has a workspace id, a page number, the text and five style
  fields. Every manager operation is one pure transition. It returns the new
  store, a result, or an error (`WorkspaceNotFound`, `PageNumberMismatch`,
  `ExistingPageNumberMismatch`, or `KeyExists` when the store refuses an
  `add` of a key that is already taken).
- **Auth form** (`auth.dfy`) and **LoginPage form** (`login_page.dfy`). These
  model the login/registration decision. It yields the users table
  afterwards, the error message shown, and the id `onLogin` receives.
- **Editor state** (`editor.dfy`). The page list and current index of the
  main screen: load, new page, title/content edits, navigation, save, logout.
- **Collections** (`collections.dfy`). Tagging a user's entries with a new
  collection id, loading a collection, and deleting it again.
- Shared helpers: `Tables` (a table as the sequence of its records in
  iteration order, with `first()`, `put` and equality queries), `Sorting`
  (the numeric comparator sort, a stable key sort, `Math.max`), `Text`
  (number formatting, `slice`, `trim`), `Entries` (the journal entries table)
  and `Wrappers`.

Ids produced by `crypto.randomUUID()`, `uuidv4()` or the store's
auto-increment come in as a parameter (`newId`). Clock readings come in as
`now`. A colliding id is not ruled out: `put` then overwrites and `add` fails,
as the store would. Freshness appears only as a lemma hypothesis where a
property needs it.

In these places the model follows the code as written:

- `updateWorkspace` on a missing id is a no-op. The store's `update` resolves
  with 0 for a missing key, so it does not fail with NotFound.
- `savePageData` never checks that the workspace exists. It can store content
  that no workspace owns (`SavePageDataIgnoresWorkspace`).
- `importWorkspace` leaves the new workspace's page list at `[1]` whatever
  pages the imported records carry.
- `verifyPageContent` can never return true (see Findings).

`src/App.tsx` calls `uuidv4()` but never imports it, so as written the
new-page handler throws before it changes anything (see Findings).
`Editor.NewPage` and `Editor.LoadPages` model the handlers as evidently
intended, with the call as the id oracle. `Editor.NewPageAsWritten` and
`Editor.LoadPagesAsWritten` model what the code does.

## Model

| member | source | states |
|---|---|---|
| `Workspace.CreateWorkspace` | src/lib/workspace.ts:76-88 | creates exactly one workspace, under the new id, with the given owner and name, `pages = [1]` and equal timestamps; every other workspace and all content are unchanged; an id already in use is refused |
| `Workspace.CreatedWorkspaceListed` | src/lib/workspace.ts:91-96 | after creation the owner's workspace listing is the previous listing plus the new workspace |
| `Workspace.GetUserWorkspaces` | src/lib/workspace.ts:91-96 | every listed workspace is a stored record that belongs to the user, and every stored workspace of the user is listed |
| `Workspace.GetWorkspace` | src/lib/workspace.ts:99-101 | a missing id yields no workspace rather than an error; otherwise the stored record |
| `Workspace.GetAfterCreate` | src/lib/workspace.ts:76-101 | `getWorkspace` right after `createWorkspace` returns the created record (pages `[1]`, both times now); every other id reads as before |
| `Workspace.UpdateWorkspace` | src/lib/workspace.ts:104-109 | supplied fields overwrite, absent ones are kept, `updatedAt` becomes now; no other workspace or content changes; a missing id changes nothing |
| `Workspace.GetAfterUpdate` | src/lib/workspace.ts:99-109 | `getWorkspace` after an update returns the old record with the supplied fields merged in and `updatedAt` now, or still nothing for a missing id; other ids read as before |
| `Workspace.UpdateKeepsPagesStrict` | src/lib/workspace.ts:104-109 | an update that supplies no page list, or a strictly ascending one, leaves the page list strictly ascending |
| `Workspace.SaveContent` | src/lib/workspace.ts:112-123 | the store afterwards holds a record under the workspace with the draft's data, its own id (or the new one when missing or empty), its creation time (or now) and `updatedAt` now; every record with another id is still there, and nothing but the written record is added; an existing id is overwritten in place at its position; workspaces untouched |
| `Workspace.PutDraft` | src/lib/workspace.ts:116-122 | the completed draft is in the table and every record with another id is kept; nothing else is added; with an id the table holds, the record at its first position is replaced in place; with a new id, the draft is appended |
| `Workspace.GetWorkspaceContent` | src/lib/workspace.ts:126-131 | exactly the content records of the workspace, each as many times as the table holds it: each result belongs to it and comes from the table, and each of its records is returned |
| `Workspace.DeleteWorkspace` | src/lib/workspace.ts:134-145 | the workspace is removed and no other; every content record of it is removed, and every record of another workspace survives; the remaining records and the workspace's records together are exactly the old table, counted with multiplicity |
| `Workspace.DeleteWorkspaceLeavesNoContent` | src/lib/workspace.ts:136-143 | after the cascading delete a content query on that workspace returns nothing |
| `Workspace.ExportWorkspace` | src/lib/workspace.ts:148-151 | the exported list holds exactly the stored records of the workspace, each as many times as stored (the JSON text is not modelled) |
| `Workspace.ImportWorkspace` | src/lib/workspace.ts:154-166 | fails exactly when the new workspace id is taken; on success the workspaces are the old ones plus the new one (given owner and name, page list `[1]`, both times now), and the content table is the result of the import loop over the old table |
| `Workspace.ImportContents` | src/lib/workspace.ts:158-165 | the loop of `saveContent` calls never shrinks the table and grows it by at most one record per input; which records survive is stated by `Workspace.ImportKeepsOthers` |
| `Workspace.ImportKeepsOthers` | src/lib/workspace.ts:158-165 | no record already in the table is lost unless a new id collides with its id |
| `Workspace.ImportContentsAppends` | src/lib/workspace.ts:158-165 | with new, distinct ids the import loop appends one re-identified record per input record, following the table's insertion order |
| `Workspace.ImportStepKeepsIdsNew` | src/lib/workspace.ts:159-163 | after one imported record is stored, the ids still to be used remain distinct and absent from the table |
| `Workspace.ImportFirstStep` | src/lib/workspace.ts:159-163 | one pass of the import loop appends the first record under its new id and the new workspace id |
| `Workspace.ImportExportRoundTrip` | src/lib/workspace.ts:148-166 | exporting an imported workspace gives back one record per input record, each with the same page number, text, styles and creation time; only the id, the workspace id and `updatedAt` are new (position i of the output matches input i under the insertion-order assumption in Left out) |
| `Workspace.ImportedAll` | src/lib/workspace.ts:159-164 | the imported records match the input one for one in data, with the supplied new ids and the new workspace id |
| `Workspace.FindPage` | src/lib/workspace.ts:171-174 | finds a record exactly when one exists for the (workspace, page) pair, and what it finds belongs to that pair |
| `Workspace.GetPageContent` | src/lib/workspace.ts:169-193 | null exactly when no record exists for the pair; otherwise the requested page number with the text and styles of a stored record for that pair |
| `Workspace.AddPage` | src/lib/workspace.ts:203-208 | afterwards the list contains the page; a page already present leaves the list unchanged; an absent page is added exactly once and the list comes out sorted |
| `Workspace.PushSorted` | src/lib/workspace.ts:205-206 | push-then-sort yields an ascending list holding the old values plus the new one |
| `Workspace.PushSortedKeepsDistinct` | src/lib/workspace.ts:368-369 | pushing a number the list lacks onto a repeat-free list, then sorting, leaves no repeats |
| `Workspace.AddPageKeepsStrict` | src/lib/workspace.ts:203-208 | a sorted list without repeats stays sorted and without repeats, and its values become the old ones plus the page |
| `Workspace.FillStyles` | src/lib/workspace.ts:220-224 | each style field keeps a supplied truthy value; a missing or empty one becomes 'Crimson Text', '16px', '#000000', 'left', or all three flags false |
| `Workspace.FillStylesKeepsComplete` | src/lib/workspace.ts:314-318 | a complete styles object with no empty strings passes through the fill-in unchanged |
| `Workspace.FillStylesIdempotent` | src/lib/workspace.ts:220-224 | a filled-in styles object has no empty string, so filling it again changes nothing |
| `Workspace.WritePage` | src/lib/workspace.ts:210-241 | an existing record for the page is overwritten in place, keeping its id and creation time; otherwise exactly one new record is appended under the new id; either way the page now finds the written record, every record with another id is kept and nothing else is added |
| `Workspace.PutPageRecord` | src/lib/workspace.ts:228-241 | after the put, the page's lookup returns the written record |
| `Workspace.SavePageContent` | src/lib/workspace.ts:196-246 | fails with 'Workspace not found' exactly when the workspace is missing; otherwise the page is in the list; a present page leaves all workspaces unchanged; an absent page is added once to a sorted list; other workspaces are untouched |
| `Workspace.SavePageContentKeepsPagesStrict` | src/lib/workspace.ts:203-208 | saving keeps a sorted, repeat-free page list sorted and repeat-free |
| `Workspace.SaveThenGetPageData` | src/lib/workspace.ts:228-280 | save then `getPageData`/`getPageContent` returns the saved text and the filled-in styles for that page |
| `Workspace.GetPageData` | src/lib/workspace.ts:249-295 | always carries the requested page number; with no record it is empty text with the default styles; otherwise the stored text and styles |
| `Workspace.SavePageData` | src/lib/workspace.ts:298-339 | rejects a page-number mismatch, and only that, with 'Page number mismatch' before touching the store; never changes any workspace; on success get returns the saved data; an existing record is overwritten in place with every other record kept; a new record is appended; a new page whose id is already taken fails with the `add` collision, and that is the only other failure: with an existing record or a free id the save succeeds |
| `Workspace.SavePageDataIgnoresWorkspace` | src/lib/workspace.ts:304-334 | with no workspace at all, `savePageData` still succeeds and stores a page no workspace owns |
| `Workspace.GetTotalPages` | src/lib/workspace.ts:342-353 | 1 for a missing workspace or an empty list; otherwise the largest listed page |
| `Workspace.CreatedWorkspaceHasOnePage` | src/lib/workspace.ts:81 | a freshly created workspace reports one page |
| `Workspace.NextPageNumber` | src/lib/workspace.ts:363-365 | the new number exceeds every listed page; it is 1 for an empty list and otherwise one more than a listed page, i.e. max + 1 |
| `Workspace.BumpPages` | src/lib/workspace.ts:367-373 | the workspace update of page creation: the list becomes sorted and gains exactly the new number, a repeat-free list stays repeat-free when the number is new, `updatedAt` becomes now and nothing else of the workspace changes; other workspaces, the set of ids and all content are unchanged |
| `Workspace.CreateNewPage` | src/lib/workspace.ts:356-393 | fails exactly for a missing workspace; returns max + 1 (or 1), a number not already listed; the store is the page-list update followed by a save of the blank page |
| `Workspace.CreateNewPageEffects` | src/lib/workspace.ts:367-386 | the list gains exactly the new number, stays sorted and stays repeat-free; the workspace is stamped; other workspaces and the set of ids are unchanged; a content record for the new page now exists (`getPageContent` is not null) and reads back as empty text with the default styles; every record with another id is kept and no other record is added |
| `Workspace.CreateNewPageAppends` | src/lib/workspace.ts:368-369 | on a sorted list the new number goes at the end, so numbers are never reused |
| `Workspace.PushSortedAppendsLargest` | src/lib/workspace.ts:368-369 | a number above every listed page is appended by push-then-sort |
| `Workspace.DeletePageContent` | src/lib/workspace.ts:407-417 | every record of the (workspace, page) pair is removed, every other record is kept as many times as before, and workspaces are untouched |
| `Workspace.DeletePageContentNoop` | src/lib/workspace.ts:407-417 | deleting a page without a record changes nothing, and deleting twice equals deleting once |
| `Workspace.VerifyPageContentNeverTrue` | src/lib/workspace.ts:396-404 | as written the check is false for every store, even right after a save of that page |
| `Workspace.VerifyPageContent` | src/lib/workspace.ts:396-404 | the check as written: whenever it is true, the intended check is true too (and `VerifyPageContentNeverTrue` shows it never is) |
| `Workspace.VerifyPageContentIntended` | src/lib/workspace.ts:396-404 | the corrected check is true exactly when a record exists for that workspace and page |
| `Workspace.VerifyIntendedAfterSave` | src/lib/workspace.ts:396-404 | the corrected check is true right after a save of the pair and false for a page never saved |
| `Sorting.SortAsc` | src/lib/workspace.ts:206 | the comparator sort yields an ascending permutation of its input |
| `Sorting.SortBy` | src/App.tsx:60 | the page sort yields a permutation ordered by page number |
| `Sorting.SortByStable` | src/App.tsx:60 | the sort is stable: the pages that share a page number keep their input order |
| `Sorting.Max` | src/lib/workspace.ts:348 | `Math.max` of a non-empty list is one of its elements and no element exceeds it |
| `Tables.FindBy` | src/components/Auth.tsx:23-26 | `where(field).equals(v).first()` (also `LoginPage.tsx:35`) finds a record exactly when one has the value, and what it finds has it |
| `Tables.Put` | src/lib/workspace.ts:116-122 | the store's `put`: a key the table does not hold is appended; the table grows by at most one record |
| `Tables.PutReplacesFirst` | src/lib/workspace.ts:116-122 | `put` on a key the table holds overwrites that record in place |
| `Tables.PutKeepsOthers` | src/lib/workspace.ts:116-122 | after `put` the written record is present, every record with another key is kept, and nothing but the written record is new |
| `Tables.FilterCounts` | src/lib/workspace.ts:126-131 | an equality query keeps each matching record as many times as the table holds it and drops every other |
| `Tables.FilterPartition` | src/lib/workspace.ts:134-145 | a query and its complement together hold exactly the table's records, counted with multiplicity |
| `Tables.PutReplaces` | src/lib/workspace.ts:116-122 | `put` on a key the table holds replaces one record carrying that key, in place |
| `Auth.Login` | src/components/Auth.tsx:21-41 | an unknown username gives 'User not found' without login; `onLogin` gets the stored id exactly when the stored password equals the entered one, otherwise 'Invalid password'; the table never changes |
| `Auth.Register` | src/components/Auth.tsx:43-78 | a short username is reported first, then a short password, then a taken name; a user is added, and `onLogin` called with its new id, exactly when all checks pass and the id is free; a taken id gives the creation failure with no change; the new user stores the entered password |
| `Auth.HandleSubmit` | src/components/Auth.tsx:16-84 | login never changes the table; no submission that fails a check adds a user |
| `Auth.RegisterThenLogin` | src/components/Auth.tsx:35-74 | after a successful registration the same credentials log in as the new id |
| `LoginPage.Register` | src/components/LoginPage.tsx:23-50 | a confirmation mismatch is reported first, then a password under 6 characters, then a taken name; a passing submission logs in with the new id exactly when that id is free (one account with `name = username` is appended), and a taken id gives the generic failure with no change |
| `LoginPage.Login` | src/components/LoginPage.tsx:51-59 | login succeeds exactly when the user exists and the password matches; both failures show 'Invalid username or password' |
| `LoginPage.HandleSubmit` | src/components/LoginPage.tsx:18-64 | login never changes the table; an account is added only by a registration whose passwords match and are long enough |
| `LoginPage.RegisterThenLogin` | src/components/LoginPage.tsx:42-58 | after a successful registration the same credentials log in as the new id |
| `Editor.DefaultTitle` | src/App.tsx:55 | the default title is 'Untitled Page ' followed by the page number as `String(n)` prints it |
| `Editor.DefaultTitleShowsNumber` | src/App.tsx:55 | the number in a default title reads back as the page number, so different pages get different default titles |
| `Editor.ToPage` | src/App.tsx:53-59 | a loaded page keeps the entry's id, text, number and time; an empty title becomes 'Untitled Page n'; the title is never empty |
| `Editor.LoadPages` | src/App.tsx:43-74 | with a user, the pages are the user's entries ordered by page number; with no entries it is one new page numbered 1 at index 0; without a user nothing happens |
| `Editor.LoadPagesAsWritten` | src/App.tsx:43-74 | the effect as written: the user's entries as pages ordered by page number, and nothing more, because the first-page call throws |
| `Editor.LoadPagesAsWrittenDiffers` | src/App.tsx:62-66 | as written and as intended agree for a user with entries; for a user without entries the as-written load leaves no page where the intended one creates page 1 |
| `Editor.LoadedPagesTitled` | src/App.tsx:52-66 | every loaded page has a non-empty title |
| `Editor.TitledPermutation` | src/App.tsx:60 | reordering pages keeps every title non-empty |
| `Editor.HandleLogin` | src/App.tsx:76-79 | marks the user logged in and leaves pages and index alone |
| `Editor.HandleLogout` | src/App.tsx:81-86 | leaves no user, no pages and index 0, a valid state |
| `Editor.NewPage` | src/App.tsx:88-99 | appends one empty page numbered length + 1 with title 'Untitled Page n', keeps all earlier pages, and selects it |
| `Editor.NewPageAsWritten` | src/App.tsx:88-99 | the handler as written: the page list, the index, the user and the login flag are all as before, because `uuidv4` throws |
| `Editor.NewPageAsWrittenDiffers` | src/App.tsx:88-99 | as written, "New Page" leaves the page list unchanged, while the intended handler adds a page |
| `Editor.EditCurrent` | src/App.tsx:126-143 | a title or content edit gives the current page the new value in that field; every other page, every other field and the rest of the state are unchanged |
| `Editor.EditCurrentKeepsValid` | src/App.tsx:126-143 | an edit keeps the index on a page and keeps that page's id |
| `Editor.SaveAfterEdit` | src/App.tsx:101-143 | an edit followed by a save stores the edited title or text under the page's id, with the other field and the page number as before |
| `Editor.TitleInput` | src/App.tsx:182-184 | the stored title is a prefix of what was typed, at most 40 characters: the whole input when it fits, otherwise exactly its first 40 characters |
| `Editor.PageSelect` | src/App.tsx:145-148 | sets the index as given; pages, user and login flag are unchanged |
| `Editor.Prev` | src/App.tsx:237 | moves back by one, changing nothing else, only from an index above 0; otherwise nothing changes; a valid index stays valid |
| `Editor.Next` | src/App.tsx:251 | moves forward by one, changing nothing else, only from an index below the last; otherwise nothing changes; a valid index stays valid |
| `Editor.NavigateStaysValid` | src/App.tsx:236-260 | any sequence of previous/next presses keeps the index within `[0, length - 1]` and leaves the pages alone |
| `Editor.SavedEntry` | src/App.tsx:104-112 | the saved entry carries the page's id and fields, time now, no collection tag, and `userIdAndPage = userId + "-" + pageNumber` |
| `Editor.Save` | src/App.tsx:101-124 | the current page is stored under its own id and found by it; entries with other ids survive and nothing else is added; an existing entry for the id is replaced in place, otherwise the entry is appended; only the current page's time changes; with no current page nothing changes |
| `Collections.TagEntries` | src/components/Collections.tsx:43-50 | every entry of the user gets the new collection id, overwriting any earlier one; other entries are unchanged |
| `Collections.ClearTag` | src/components/Collections.tsx:80-85 | exactly the entries carrying the id lose their tag; all others are unchanged |
| `Collections.SaveCurrentPages` | src/components/Collections.tsx:22-58 | an empty or whitespace-only name is refused with no change; a taken collection id is refused with no change; otherwise the save succeeds, adding exactly the one collection and tagging the user's entries |
| `Collections.LoadCollection` | src/components/Collections.tsx:60-73 | yields exactly the entries tagged with the collection id |
| `Collections.DeleteCollection` | src/components/Collections.tsx:75-93 | a cancelled confirmation changes nothing; otherwise the tag is cleared from exactly the entries carrying it and that collection alone is removed: every other collection keeps its count |
| `Collections.LoadCollectionCounts` | src/components/Collections.tsx:60-73 | each tagged entry is loaded as many times as the shelf holds it, and no untagged entry at all |
| `Collections.SaveThenLoad` | src/components/Collections.tsx:22-67 | loading a just-saved collection gives the user's entries, each tagged, and no other user's entries |
| `Collections.DeleteThenLoadEmpty` | src/components/Collections.tsx:60-93 | after a confirmed delete, loading that collection finds nothing |
| `Text.TrimEmptyIffBlank` | src/components/Collections.tsx:23 | `!name.trim()` holds exactly when the name is empty or all white space |
| `Text.Truncate` | src/App.tsx:183 | `slice(0, 40)` yields a prefix of at most 40 characters, the whole string when shorter |
| `Text.IntToString` | src/App.tsx:111 | a number prints as a non-empty string of digits, with a leading minus sign exactly when negative |
| `Text.IntToStringValue` | src/App.tsx:111 | reading the printed string back as a number gives the number |
| `Text.IntToStringInjective` | src/App.tsx:111 | different numbers print differently, so `userIdAndPage` tells pages apart |
| `Text.NatToStringValue` | src/App.tsx:111 | the digits printed for a natural number denote it |

## Left out

- Storage engines: the query API calls, the SQLite/drizzle setup in
  `src/lib/db/index.ts` and the session adapter in `src/lib/auth.ts` are not
  part of this model. Tables are abstract sequences and maps. A content
  table's order is its iteration order, which `first()` follows.
- Transactions and `Promise.all` ordering: each operation is one atomic step.
  Storage failures other than key collisions are not modelled, so the
  handlers' generic `catch` messages never appear.
- Query order: a table is the sequence of its records in insertion order,
  and `put` appends a new key at the end. A Dexie (IndexedDB) store returns
  an index query in index-key order, with ties broken by primary key. Under
  that order, `Workspace.ImportExportRoundTrip` holds only up to
  permutation: the exported records follow their new random ids. Likewise,
  when two records share a (workspace, page) pair, `Workspace.FindPage` takes
  the earliest inserted where the store would take the smallest id. An
  import of two records for one page can create such a pair. For the same
  reason `Editor.LoadPages` orders pages that share a page number by their
  position in the entries table (`Sorting.SortByStable`), where the store
  would hand them to the sort ordered by id.
- JSON: `exportWorkspace` returns the record list rather than its text.
  `importWorkspace` takes a record list. Dates therefore do not turn into
  strings on the way through.
- Timestamps and ids are parameters. Console logging, `alert` and `confirm`
  are left out; the confirmation's answer is an input to `DeleteCollection`.
- Workspace.UpdateWorkspace: patches that change the primary key, and
  explicit `undefined` values, are not modelled.
- Workspace.SaveContent: drafts missing data fields (text, styles, page
  number) are not modelled; only the id and creation time may be missing.
- Workspace.SavePageData: the `update` of an existing record is modelled as a
  put of the merged record. The two differ only when two records share a
  primary key, which the store forbids.
- Workspace.GetPageData: the `content || ''` fallback is not visible, because
  stored text is always a string here.
- Editor.EditCurrent: requires a current page. With an index outside the
  list, JavaScript would write a partial page object into the array.
- Editor.TitleInput: requires a current page, for the same reason; the
  title input hands its cut value to the same title edit.
- Editor.LoadPages: the stale `pages` value in the effect's closure is taken
  to be the empty list, as it is right after login. The dark-mode, font,
  colour, dashboard and settings state are not modelled.
- Workspace.NextPageNumber: page numbers are unbounded integers. JavaScript
  numbers are doubles, so from 2^53 on `Math.max(...pages) + 1` equals the
  maximum and a number would be reused; `Workspace.CreateNewPageAppends`
  (never reused) holds only below that. Non-integer page numbers are not
  modelled.
- Workspace.CreateNewPageAppends: holds for page numbers below 2^53 only, as
  the line above explains.
- Editor.NewPage: numbers pages by list length, as the code does. It is not
  max + 1, so a list with gaps could repeat a number.
- Text.IsWhitespace: the space separators are those of the Unicode version
  the list was taken from; an engine on a later version would also strip any
  space separator added since. Lone UTF-16 surrogates, which a JavaScript
  string may hold, cannot occur in a Dafny string.
- Text.Truncate: counts Unicode scalar values, while `slice(0, 40)` counts
  UTF-16 code units, so a title with characters outside the Basic
  Multilingual Plane is cut at a different place.
- Auth.Register: the username and password length checks count Unicode
  scalar values, while JavaScript's `length` counts UTF-16 code units; the
  two differ for characters outside the Basic Multilingual Plane.
- LoginPage.Register: the password length check counts scalar values rather
  than UTF-16 code units, as for Auth.Register.
- Rendering, animations, toasts, settings and the dashboard are not modelled.
  Nor is `src/components/JournalPage.tsx`, a single create-or-update call.

## Findings

| source | as written | input that shows it | evidently intended | confidence | as-written member | corrected member |
|---|---|---|---|---|---|---|
| src/lib/workspace.ts:396-404 | `verifyPageContent` compares `content.workspaceId`, but the object `getPageContent` returns has no such field, so the check is always false | any workspace, e.g. save page 1 of an existing workspace, then verify page 1 | true exactly when a record exists for that workspace and page, as the comment above the method (src/lib/workspace.ts:395) says: it verifies the page content | high (not executed) | `Workspace.VerifyPageContentNeverTrue` | `Workspace.VerifyPageContentIntended` |
| src/App.tsx:88-99 | `handleNewPage` calls `uuidv4()`, which `src/App.tsx` never imports (lines 1-18), so building the new page throws before `setPages` runs and the page list stays as it was | press "New Page" | a new empty page is appended and selected | medium (not executed; the build setup that could supply a global `uuidv4` is not part of this model) | `Editor.NewPageAsWrittenDiffers` | `Editor.NewPage` |
| src/App.tsx:62-66 | for a user without entries, `loadPages` calls `handleNewPage`, which throws for the same reason; its `catch` only logs, so the user is left with no page at all | log in as a user with no saved entries | the user starts on one empty page numbered 1 | medium (not executed; as for the row above) | `Editor.LoadPagesAsWrittenDiffers` | `Editor.LoadPages` |

=== FILE: auth.dfy ===
/**
 * The submit handler of the `Auth` form: login against the users table, or
 * registration with length checks. The outcome records the users table
 * afterwards, the error message shown, and the id `onLogin` was called with.
 */
module Auth {
  import opened Wrappers
  import opened Tables

  type Id = string

  datatype User = User(id: Id, username: string, hashedPassword: string)

  datatype Form = Form(isLogin: bool, username: string, password: string)

  datatype Outcome = Outcome(users: seq<User>, error: string, loggedIn: Option<Id>)

  const UserNotFound := "User not found"
  const InvalidPassword := "Invalid password"
  const UsernameTooShort := "Username must be at least 3 characters long"
  const PasswordTooShort := "Password must be at least 6 characters long"
  const UsernameTaken := "Username already exists"
  const CreateFailed := "Failed to create account. Please try again."

  function UserKey(u: User): Id { u.id }

  function Username(u: User): string { u.username }

  /**
   * The login branch: an unknown name is reported first; otherwise `onLogin`
   * runs exactly when the stored password equals the entered one.
   */
  function Login(users: seq<User>, username: string, password: string): (r: Outcome)
    ensures r.users == users
    ensures FindBy(users, Username, username).None? ==> r.error == UserNotFound && r.loggedIn.None?
    ensures r.loggedIn.Some? <==> FindBy(users, Username, username).Some? && FindBy(users, Username, username).value.hashedPassword == password
    ensures r.loggedIn.Some? ==> r.loggedIn.value == FindBy(users, Username, username).value.id && r.error == ""
    ensures FindBy(users, Username, username).Some? && r.loggedIn.None? ==> r.error == InvalidPassword
  {
    match FindBy(users, Username, username)
    case None => Outcome(users, UserNotFound, None)
    case Some(u) =>
      if u.hashedPassword == password then Outcome(users, "", Some(u.id))
      else Outcome(users, InvalidPassword, None)
  }

  /** Registration passes its input checks: lengths, then a free username. */
  predicate RegistrationValid(users: seq<User>, username: string, password: string)
  {
    |username| >= 3 && |password| >= 6 && FindBy(users, Username, username).None?
  }

  /**
   * The registration branch: the username length is checked first, the
   * password length second, a taken name third; only then is the user added.
   */
  function Register(users: seq<User>, username: string, password: string, newId: Id): (r: Outcome)
    ensures |username| < 3 ==> r == Outcome(users, UsernameTooShort, None)
    ensures |username| >= 3 && |password| < 6 ==> r == Outcome(users, PasswordTooShort, None)
    ensures |username| >= 3 && |password| >= 6 && FindBy(users, Username, username).Some? ==> r == Outcome(users, UsernameTaken, None)
    ensures r.users != users ==> RegistrationValid(users, username, password)
    ensures r.users != users <==> r.loggedIn.Some?
    ensures r.loggedIn.Some? ==> r.users == users + [User(newId, username, password)] && r.loggedIn.value == newId && r.error == ""
    ensures RegistrationValid(users, username, password) && r.loggedIn.None? ==> r.error == CreateFailed && HasKey(users, UserKey, newId)
    ensures RegistrationValid(users, username, password) && HasKey(users, UserKey, newId) ==> r == Outcome(users, CreateFailed, None)
  {
    if |username| < 3 then Outcome(users, UsernameTooShort, None)
    else if |password| < 6 then Outcome(users, PasswordTooShort, None)
    else if FindBy(users, Username, username).Some? then Outcome(users, UsernameTaken, None)
    else if HasKey(users, UserKey, newId) then Outcome(users, CreateFailed, None)
    else Outcome(users + [User(newId, username, password)], "", Some(newId))
  }

  /** `handleSubmit`: dispatch on the form's mode. */
  function HandleSubmit(users: seq<User>, form: Form, newId: Id): (r: Outcome)
    ensures form.isLogin ==> r.users == users
    ensures r.users != users ==> !form.isLogin && RegistrationValid(users, form.username, form.password)
    ensures r.loggedIn.Some? ==> r.error == ""
  {
    if form.isLogin then Login(users, form.username, form.password)
    else Register(users, form.username, form.password, newId)
  }

  /** A user just registered can log in with the same name and password, and gets the new id. */
  lemma RegisterThenLogin(users: seq<User>, username: string, password: string, newId: Id)
    requires Register(users, username, password, newId).loggedIn.Some?
    ensures Login(Register(users, username, password, newId).users, username, password).loggedIn == Some(newId)
  {
    var users' := Register(users, username, password, newId).users;
    assert users'[|users|] == User(newId, username, password);
    assert forall i :: 0 <= i < |users| ==> users'[i] == users[i];
  }
}

=== FILE: collections.dfy ===
/**
 * Collections: saving all of a user's entries under a new named collection,
 * loading a collection's entries, and deleting a collection. An entry belongs
 * to at most one collection, through its `collectionId` tag.
 */
module Collections {
  import opened Wrappers
  import opened Tables
  import opened Text
  import opened Entries

  datatype Collection = Collection(id: Id, userId: Id, name: string, createdAt: int)

  /** The two tables the handlers touch. */
  datatype Shelf = Shelf(entries: seq<Entry>, collections: seq<Collection>)

  const NameMissing := "Please enter a collection name"
  const SaveFailed := "Failed to save collection"

  function CollectionKey(c: Collection): Id { c.id }

  function KeptCollection(collectionId: Id): Collection -> bool { (c: Collection) => c.id != collectionId }

  /** Every entry of `userId` tagged with `collectionId`, whatever tag it had; other entries unchanged. */
  function TagEntries(es: seq<Entry>, userId: Id, collectionId: Id): (r: seq<Entry>)
    ensures |r| == |es|
    ensures forall i :: 0 <= i < |es| && es[i].userId == userId ==> r[i] == es[i].(collectionId := Some(collectionId))
    ensures forall i :: 0 <= i < |es| && es[i].userId != userId ==> r[i] == es[i]
  {
    seq(|es|, i requires 0 <= i < |es| => if es[i].userId == userId then es[i].(collectionId := Some(collectionId)) else es[i])
  }

  /** The tag `collectionId` removed from exactly the entries carrying it. */
  function ClearTag(es: seq<Entry>, collectionId: Id): (r: seq<Entry>)
    ensures |r| == |es|
    ensures forall i :: 0 <= i < |es| && es[i].collectionId == Some(collectionId) ==> r[i] == es[i].(collectionId := None)
    ensures forall i :: 0 <= i < |es| && es[i].collectionId != Some(collectionId) ==> r[i] == es[i]
  {
    seq(|es|, i requires 0 <= i < |es| => if es[i].collectionId == Some(collectionId) then es[i].(collectionId := None) else es[i])
  }

  /**
   * `handleSaveCurrentPages`: a blank name is refused before anything is
   * read; otherwise one collection is added and every entry of the user is
   * tagged with its id. A rejected `add` leaves both tables alone.
   */
  function SaveCurrentPages(sh: Shelf, userId: Id, name: string, newId: Id, now: int): (r: Result<Shelf, string>)
    ensures AllWhitespace(name) ==> r == Failure(NameMissing)
    ensures !AllWhitespace(name) && HasKey(sh.collections, CollectionKey, newId) ==> r == Failure(SaveFailed)
    ensures !AllWhitespace(name) && !HasKey(sh.collections, CollectionKey, newId) ==> r.Success?
    ensures r.Success? ==>
      && !AllWhitespace(name)
      && r.value.collections == sh.collections + [Collection(newId, userId, name, now)]
      && r.value.entries == TagEntries(sh.entries, userId, newId)
  {
    TrimEmptyIffBlank(name);
    if Trim(name) == "" then Failure(NameMissing)
    else if HasKey(sh.collections, CollectionKey, newId) then Failure(SaveFailed)
    else Success(Shelf(TagEntries(sh.entries, userId, newId), sh.collections + [Collection(newId, userId, name, now)]))
  }

  /** `handleLoadCollection`: the entries tagged with the collection, in table order. */
  function LoadCollection(sh: Shelf, collectionId: Id): (r: seq<Entry>)
    ensures forall i :: 0 <= i < |r| ==> r[i].collectionId == Some(collectionId) && r[i] in sh.entries
    ensures forall i :: 0 <= i < |sh.entries| && sh.entries[i].collectionId == Some(collectionId) ==> sh.entries[i] in r
  {
    Filter(sh.entries, TaggedWith(collectionId))
  }

  /** Loading keeps every tagged entry as many times as the shelf holds it, and nothing else. */
  lemma LoadCollectionCounts(sh: Shelf, collectionId: Id)
    ensures var loaded := LoadCollection(sh, collectionId);
      forall e :: multiset(loaded)[e] == if e.collectionId == Some(collectionId) then multiset(sh.entries)[e] else 0
  {
    FilterCounts(sh.entries, TaggedWith(collectionId));
  }

  /**
   * `handleDeleteCollection`: unless the user cancels, clears the tag from
   * the entries carrying it and then removes the collection.
   */
  function DeleteCollection(sh: Shelf, collectionId: Id, confirmed: bool): (r: Shelf)
    ensures !confirmed ==> r == sh
    ensures confirmed ==> r.entries == ClearTag(sh.entries, collectionId)
    ensures confirmed ==> forall i :: 0 <= i < |r.collections| ==> r.collections[i].id != collectionId && r.collections[i] in sh.collections
    ensures confirmed ==> forall i :: 0 <= i < |sh.collections| && sh.collections[i].id != collectionId ==> sh.collections[i] in r.collections
    ensures confirmed ==> forall c :: multiset(r.collections)[c] == if c.id == collectionId then 0 else multiset(sh.collections)[c]
  {
    if !confirmed then sh
    else
      FilterCounts(sh.collections, KeptCollection(collectionId));
      Shelf(ClearTag(sh.entries, collectionId), Filter(sh.collections, KeptCollection(collectionId)))
  }

  /**
   * Saving then loading the new collection yields the user's entries, each
   * tagged, and nothing of any other user, provided no other entry already
   * carried the new id.
   */
  lemma SaveThenLoad(sh: Shelf, userId: Id, name: string, newId: Id, now: int)
    requires SaveCurrentPages(sh, userId, name, newId, now).Success?
    requires forall i :: 0 <= i < |sh.entries| && sh.entries[i].userId != userId ==> sh.entries[i].collectionId != Some(newId)
    ensures var loaded := LoadCollection(SaveCurrentPages(sh, userId, name, newId, now).value, newId);
      && (forall i :: 0 <= i < |loaded| ==> loaded[i].userId == userId)
      && (forall i :: 0 <= i < |sh.entries| && sh.entries[i].userId == userId ==> sh.entries[i].(collectionId := Some(newId)) in loaded)
  {
    var sh' := SaveCurrentPages(sh, userId, name, newId, now).value;
    var loaded := LoadCollection(sh', newId);
    forall i | 0 <= i < |loaded| ensures loaded[i].userId == userId {
      var j :| 0 <= j < |sh'.entries| && sh'.entries[j] == loaded[i];
    }
    forall i | 0 <= i < |sh.entries| && sh.entries[i].userId == userId
      ensures sh.entries[i].(collectionId := Some(newId)) in loaded
    {
      assert sh'.entries[i] == sh.entries[i].(collectionId := Some(newId));
    }
  }

  /** After a confirmed delete, loading that collection finds nothing. */
  lemma DeleteThenLoadEmpty(sh: Shelf, collectionId: Id)
    ensures LoadCollection(DeleteCollection(sh, collectionId, true), collectionId) == []
  {
    FilterNone(DeleteCollection(sh, collectionId, true).entries, TaggedWith(collectionId));
  }
}

=== FILE: editor.dfy ===
/**
 * The page-list state of the journal editor: loading a user's pages, adding
 * a page, editing the current page, moving between pages, saving, logging out.
 * Each handler is a pure transition from one state to the next.
 */
module Editor {
  import opened Wrappers
  import opened Tables
  import opened Sorting
  import opened Text
  import opened Entries

  datatype Page = Page(id: Id, title: string, content: string, pageNumber: int, updatedAt: int)

  /** The editor's state: who is logged in, the page list, and the index of the page shown. */
  datatype State = State(authenticated: bool, userId: Id, pages: seq<Page>, current: int)

  /** Longest title the title input keeps. */
  const MaxTitleLength := 40

  function PageNumberOf(p: Page): int { p.pageNumber }

  /** `Untitled Page ${n}` */
  function DefaultTitle(n: int): (r: string)
    ensures |r| > 14 && r[..14] == "Untitled Page "
    ensures r[14..] == IntToString(n)
  {
    "Untitled Page " + IntToString(n)
  }

  /** The default title shows the page number: distinct numbers give distinct titles. */
  lemma DefaultTitleShowsNumber(n: int)
    ensures NumberValue(DefaultTitle(n)[14..]) == n
    ensures forall m :: DefaultTitle(m) == DefaultTitle(n) ==> m == n
  {
    IntToStringValue(n);
    forall m | DefaultTitle(m) == DefaultTitle(n) ensures m == n {
      assert DefaultTitle(m)[14..] == DefaultTitle(n)[14..];
      IntToStringInjective(m, n);
    }
  }

  /** The current index points at a page, or the list is empty and the index is 0. */
  predicate Valid(st: State)
  {
    (|st.pages| == 0 && st.current == 0) || 0 <= st.current < |st.pages|
  }

  /** The page the editor builds from a stored entry; a missing title gets the default. */
  function ToPage(e: Entry): (p: Page)
    ensures p.id == e.id && p.content == e.content && p.pageNumber == e.pageNumber && p.updatedAt == e.updatedAt
    ensures e.title != "" ==> p.title == e.title
    ensures e.title == "" ==> p.title == DefaultTitle(e.pageNumber)
    ensures p.title != ""
  {
    Page(e.id, if e.title != "" then e.title else DefaultTitle(e.pageNumber), e.content, e.pageNumber, e.updatedAt)
  }

  function ToPages(es: seq<Entry>): (ps: seq<Page>)
    ensures |ps| == |es|
    ensures forall i :: 0 <= i < |es| ==> ps[i] == ToPage(es[i])
  {
    seq(|es|, i requires 0 <= i < |es| => ToPage(es[i]))
  }

  /** `handleLogin` */
  function HandleLogin(st: State, uid: Id): (r: State)
    ensures r.authenticated && r.userId == uid && r.pages == st.pages && r.current == st.current
  {
    st.(authenticated := true, userId := uid)
  }

  /** `handleLogout`: no user, no pages, index back at 0. */
  function HandleLogout(st: State): (r: State)
    ensures !r.authenticated && r.userId == "" && r.pages == [] && r.current == 0
    ensures Valid(r)
  {
    State(false, "", [], 0)
  }

  /**
   * `handleNewPage`: appends an empty page numbered one past the list's
   * length and makes it the current page.
   */
  function NewPage(st: State, newId: Id, now: int): (r: State)
    ensures |r.pages| == |st.pages| + 1
    ensures r.pages[..|st.pages|] == st.pages
    ensures r.pages[|st.pages|] == Page(newId, DefaultTitle(|st.pages| + 1), "", |st.pages| + 1, now)
    ensures r.current == |st.pages| && Valid(r)
    ensures r.userId == st.userId && r.authenticated == st.authenticated
  {
    var n := |st.pages| + 1;
    st.(pages := st.pages + [Page(newId, DefaultTitle(n), "", n, now)], current := |st.pages|)
  }

  /**
   * The `loadPages` effect: once a user is set, the user's entries become
   * pages ordered by page number; with none, a first page is created.
   */
  function LoadPages(st: State, table: seq<Entry>, newId: Id, now: int): (r: State)
    ensures st.userId == "" ==> r == st
    ensures r.userId == st.userId && r.authenticated == st.authenticated
    ensures st.userId != "" ==> SortedBy(r.pages, PageNumberOf)
    ensures st.userId != "" && |Filter(table, OwnedBy(st.userId))| > 0 ==>
      multiset(r.pages) == multiset(ToPages(Filter(table, OwnedBy(st.userId)))) && r.current == st.current
    ensures st.userId != "" && |Filter(table, OwnedBy(st.userId))| == 0 ==>
      r.pages == [Page(newId, DefaultTitle(1), "", 1, now)] && r.current == 0
  {
    if st.userId == "" then st
    else
      var sorted := SortBy(ToPages(Filter(table, OwnedBy(st.userId))), PageNumberOf);
      if |sorted| == 0 then NewPage(st.(pages := sorted), newId, now)
      else st.(pages := sorted)
  }

  /**
   * `handleNewPage` as written: the handler calls `uuidv4`, which the module
   * never imports, so building the new page throws before any state is set.
   */
  function NewPageAsWritten(st: State): (r: State)
    ensures r.pages == st.pages && r.current == st.current
    ensures r.authenticated == st.authenticated && r.userId == st.userId
  {
    st
  }

  /** As written, "New Page" leaves the state unchanged, while the intended handler adds a page. */
  lemma NewPageAsWrittenDiffers(st: State, newId: Id, now: int)
    ensures NewPageAsWritten(st).pages == st.pages
    ensures |NewPage(st, newId, now).pages| == |NewPageAsWritten(st).pages| + 1
  {
  }

  /**
   * The `loadPages` effect as written: the sorted entries are set first; the
   * call that would add a first page throws, and the effect's `catch` only logs.
   */
  function LoadPagesAsWritten(st: State, table: seq<Entry>): (r: State)
    ensures st.userId == "" ==> r == st
    ensures st.userId != "" ==> SortedBy(r.pages, PageNumberOf)
    ensures st.userId != "" ==> multiset(r.pages) == multiset(ToPages(Filter(table, OwnedBy(st.userId))))
    ensures r.current == st.current && r.userId == st.userId
  {
    if st.userId == "" then st
    else st.(pages := SortBy(ToPages(Filter(table, OwnedBy(st.userId))), PageNumberOf))
  }

  /**
   * The two loads agree for a user with entries; for a user without any, the
   * as-written load leaves no page at all where the intended one creates page 1.
   */
  lemma LoadPagesAsWrittenDiffers(st: State, table: seq<Entry>, newId: Id, now: int)
    requires st.userId != ""
    ensures |Filter(table, OwnedBy(st.userId))| > 0 ==> LoadPagesAsWritten(st, table) == LoadPages(st, table, newId, now)
    ensures |Filter(table, OwnedBy(st.userId))| == 0 ==>
      LoadPagesAsWritten(st, table).pages == [] && |LoadPages(st, table, newId, now).pages| == 1
  {
  }

  /** Every loaded page has a non-empty title. */
  lemma LoadedPagesTitled(st: State, table: seq<Entry>, newId: Id, now: int)
    requires st.userId != ""
    ensures forall i :: 0 <= i < |LoadPages(st, table, newId, now).pages| ==> LoadPages(st, table, newId, now).pages[i].title != ""
  {
    var mapped := ToPages(Filter(table, OwnedBy(st.userId)));
    var sorted := SortBy(mapped, PageNumberOf);
    if |sorted| > 0 {
      assert LoadPages(st, table, newId, now).pages == sorted;
      TitledPermutation(sorted, mapped);
    }
  }

  /** Reordering pages keeps every title non-empty. */
  lemma TitledPermutation(a: seq<Page>, b: seq<Page>)
    requires multiset(a) == multiset(b)
    requires forall i :: 0 <= i < |b| ==> b[i].title != ""
    ensures forall i :: 0 <= i < |a| ==> a[i].title != ""
  {
    forall i | 0 <= i < |a| ensures a[i].title != "" {
      assert a[i] in multiset(b);
      var j :| 0 <= j < |b| && b[j] == a[i];
    }
  }

  /** The two text fields of a page the editor changes. */
  datatype PageField = TitleField | ContentField

  /**
   * `handleTitleChange` and `handleContentChange`: the named field of the
   * current page takes the new value; nothing else in the state changes.
   */
  function EditCurrent(st: State, field: PageField, value: string): (r: State)
    requires 0 <= st.current < |st.pages|
    ensures r == st.(pages := r.pages)
    ensures |r.pages| == |st.pages|
    ensures field == TitleField ==> r.pages[st.current] == st.pages[st.current].(title := value)
    ensures field == ContentField ==> r.pages[st.current] == st.pages[st.current].(content := value)
    ensures forall i :: 0 <= i < |st.pages| && i != st.current ==> r.pages[i] == st.pages[i]
  {
    var p := st.pages[st.current];
    var q := match field
      case TitleField => p.(title := value)
      case ContentField => p.(content := value);
    st.(pages := st.pages[st.current := q])
  }

  /** An edit keeps the index pointing at a page. */
  lemma EditCurrentKeepsValid(st: State, field: PageField, value: string)
    requires 0 <= st.current < |st.pages|
    ensures Valid(EditCurrent(st, field, value))
    ensures EditCurrent(st, field, value).pages[st.current].id == st.pages[st.current].id
  {
  }

  /** An edit followed by `handleSave` stores the edited field under the page's id. */
  lemma SaveAfterEdit(st: State, field: PageField, value: string, table: seq<Entry>, now: int)
    requires 0 <= st.current < |st.pages|
    ensures var stored := First(Save(EditCurrent(st, field, value), table, now).1, KeyIs(EntryKey, st.pages[st.current].id));
      && stored.Some?
      && stored.value.pageNumber == st.pages[st.current].pageNumber
      && (field == TitleField ==> stored.value.title == value && stored.value.content == st.pages[st.current].content)
      && (field == ContentField ==> stored.value.content == value && stored.value.title == st.pages[st.current].title)
  {
    var st' := EditCurrent(st, field, value);
    assert st'.pages[st'.current].id == st.pages[st.current].id;
  }

  /** The title input: the typed value is cut to 40 characters before the title edit. */
  function TitleInput(st: State, typed: string): (r: State)
    requires 0 <= st.current < |st.pages|
    ensures |r.pages| == |st.pages|
    ensures |r.pages[st.current].title| <= MaxTitleLength
    ensures r.pages[st.current].title <= typed
    ensures |typed| <= MaxTitleLength ==> r == EditCurrent(st, TitleField, typed)
    ensures |typed| > MaxTitleLength ==> r == EditCurrent(st, TitleField, typed[..MaxTitleLength])
  {
    EditCurrent(st, TitleField, Truncate(typed, MaxTitleLength))
  }

  /** `handlePageSelect`: sets the index as given, unchecked. */
  function PageSelect(st: State, index: int): (r: State)
    ensures r.current == index && r.pages == st.pages && r.userId == st.userId
    ensures r.authenticated == st.authenticated
  {
    st.(current := index)
  }

  /** The previous-page button: moves only from an index above 0. */
  function Prev(st: State): (r: State)
    ensures r.pages == st.pages
    ensures st.current > 0 ==> r == st.(current := st.current - 1)
    ensures st.current <= 0 ==> r == st
    ensures Valid(st) ==> Valid(r)
  {
    if st.current > 0 then PageSelect(st, st.current - 1) else st
  }

  /** The next-page button: moves only from an index below the last. */
  function Next(st: State): (r: State)
    ensures r.pages == st.pages
    ensures st.current < |st.pages| - 1 ==> r == st.(current := st.current + 1)
    ensures st.current >= |st.pages| - 1 ==> r == st
    ensures Valid(st) ==> Valid(r)
  {
    if st.current < |st.pages| - 1 then PageSelect(st, st.current + 1) else st
  }

  datatype Move = Back | Forward

  /** A run of button presses. */
  function Navigate(st: State, moves: seq<Move>): State
    decreases |moves|
  {
    if moves == [] then st
    else Navigate(if moves[0] == Back then Prev(st) else Next(st), moves[1..])
  }

  /** However the buttons are pressed, the index stays within `[0, length - 1]` and the pages are untouched. */
  lemma {:induction false} NavigateStaysValid(st: State, moves: seq<Move>)
    requires Valid(st)
    ensures Valid(Navigate(st, moves))
    ensures Navigate(st, moves).pages == st.pages
    decreases |moves|
  {
    if moves != [] {
      NavigateStaysValid(if moves[0] == Back then Prev(st) else Next(st), moves[1..]);
    }
  }

  /** The entry `handleSave` writes for a page. */
  function SavedEntry(userId: Id, p: Page, now: int): (e: Entry)
    ensures e.id == p.id && e.userId == userId && e.title == p.title && e.content == p.content
    ensures e.pageNumber == p.pageNumber && e.updatedAt == now && e.collectionId.None?
    ensures e.userIdAndPage == userId + "-" + IntToString(p.pageNumber)
  {
    Entry(p.id, userId, p.title, p.content, p.pageNumber, now, userId + "-" + IntToString(p.pageNumber), None)
  }

  /**
   * `handleSave`: puts the current page under its own id, replacing the whole
   * stored entry, then stamps the page. Without a current page the handler's
   * error is caught and nothing changes.
   */
  function Save(st: State, table: seq<Entry>, now: int): (r: (State, seq<Entry>))
    ensures !(0 <= st.current < |st.pages|) ==> r == (st, table)
    ensures 0 <= st.current < |st.pages| ==>
      && First(r.1, KeyIs(EntryKey, st.pages[st.current].id)) == Some(SavedEntry(st.userId, st.pages[st.current], now))
      && (forall i :: 0 <= i < |table| && table[i].id != st.pages[st.current].id ==> table[i] in r.1)
      && r.0.pages == st.pages[st.current := st.pages[st.current].(updatedAt := now)]
      && r.0.current == st.current
    ensures 0 <= st.current < |st.pages| ==>
      var e := SavedEntry(st.userId, st.pages[st.current], now);
      && (forall x :: x in r.1 ==> x in table || x == e)
      && (HasKey(table, EntryKey, e.id) ==> exists i :: 0 <= i < |table| && table[i].id == e.id && r.1 == table[i := e])
      && (!HasKey(table, EntryKey, e.id) ==> r.1 == table + [e])
  {
    if !(0 <= st.current < |st.pages|) then (st, table)
    else
      var p := st.pages[st.current];
      var e := SavedEntry(st.userId, p, now);
      PutThenFind(table, EntryKey, e);
      PutKeepsOthers(table, EntryKey, e);
      assert SavedEntry(st.userId, p, now).id == p.id;
      if HasKey(table, EntryKey, e.id) then
        PutReplaces(table, EntryKey, e);
        (st.(pages := st.pages[st.current := p.(updatedAt := now)]), Put(table, EntryKey, e))
      else
        (st.(pages := st.pages[st.current := p.(updatedAt := now)]), Put(table, EntryKey, e))
  }
}

=== FILE: entries.dfy ===
/** The journal entries table the editor saves to and collections tag. */
module Entries {
  import opened Wrappers

  type Id = string

  /** A saved page; `title` is empty when none was given, `collectionId` is absent until tagged. */
  datatype Entry = Entry(
    id: Id,
    userId: Id,
    title: string,
    content: string,
    pageNumber: int,
    updatedAt: int,
    userIdAndPage: string,
    collectionId: Option<Id>)

  function EntryKey(e: Entry): Id { e.id }

  /** `.where('userId').equals(userId)` */
  function OwnedBy(userId: Id): Entry -> bool { (e: Entry) => e.userId == userId }

  /** `.where('collectionId').equals(collectionId)` */
  function TaggedWith(collectionId: Id): Entry -> bool { (e: Entry) => e.collectionId == Some(collectionId) }
}

=== FILE: login_page.dfy ===
/**
 * The submit handler of the `LoginPage` form: registration with a confirmed
 * password, or login with one combined failure message.
 */
module LoginPage {
  import opened Wrappers
  import opened Tables

  type Id = string

  datatype Account = Account(id: Id, username: string, email: string, password: string, name: string, createdAt: int)

  datatype Form = Form(isRegistering: bool, username: string, email: string, password: string, confirmPassword: string)

  /** The users table afterwards, the message shown, and the id `onLogin` was called with. */
  datatype Outcome = Outcome(users: seq<Account>, error: string, loggedIn: Option<Id>)

  const PasswordsDiffer := "Passwords do not match"
  const PasswordTooShort := "Password must be at least 6 characters long"
  const UsernameTaken := "Username already exists"
  const BadCredentials := "Invalid username or password"
  const GenericFailure := "An error occurred. Please try again."

  function AccountKey(a: Account): Id { a.id }

  function Username(a: Account): string { a.username }

  /**
   * Registration: a confirmation mismatch is reported first, a short password
   * second, a taken name third; otherwise the account is added with
   * `name = username` under the id the store assigns, and `onLogin` gets it.
   */
  function Register(users: seq<Account>, form: Form, newId: Id, now: int): (r: Outcome)
    ensures form.password != form.confirmPassword ==> r == Outcome(users, PasswordsDiffer, None)
    ensures form.password == form.confirmPassword && |form.password| < 6 ==> r == Outcome(users, PasswordTooShort, None)
    ensures form.password == form.confirmPassword && |form.password| >= 6 && FindBy(users, Username, form.username).Some? ==>
      r == Outcome(users, UsernameTaken, None)
    ensures r.users != users <==> r.loggedIn.Some?
    ensures r.loggedIn.Some? ==>
      && form.password == form.confirmPassword && |form.password| >= 6 && FindBy(users, Username, form.username).None?
      && r.users == users + [Account(newId, form.username, form.email, form.password, form.username, now)]
      && r.loggedIn.value == newId && r.error == ""
    ensures form.password == form.confirmPassword && |form.password| >= 6 && FindBy(users, Username, form.username).None? ==>
      (r.loggedIn == Some(newId) <==> !HasKey(users, AccountKey, newId))
    ensures var passes := form.password == form.confirmPassword && |form.password| >= 6;
      passes && FindBy(users, Username, form.username).None? && HasKey(users, AccountKey, newId) ==>
        r == Outcome(users, GenericFailure, None)
  {
    if form.password != form.confirmPassword then Outcome(users, PasswordsDiffer, None)
    else if |form.password| < 6 then Outcome(users, PasswordTooShort, None)
    else if FindBy(users, Username, form.username).Some? then Outcome(users, UsernameTaken, None)
    else if HasKey(users, AccountKey, newId) then Outcome(users, GenericFailure, None)
    else
      var account := Account(newId, form.username, form.email, form.password, form.username, now);
      Outcome(users + [account], "", Some(account.id))
  }

  /** Login: succeeds exactly when the name exists and the password matches; both failures read alike. */
  function Login(users: seq<Account>, username: string, password: string): (r: Outcome)
    ensures r.users == users
    ensures r.loggedIn.Some? <==> FindBy(users, Username, username).Some? && FindBy(users, Username, username).value.password == password
    ensures r.loggedIn.Some? ==> r.loggedIn.value == FindBy(users, Username, username).value.id && r.error == ""
    ensures r.loggedIn.None? ==> r.error == BadCredentials
  {
    match FindBy(users, Username, username)
    case Some(a) =>
      if a.password == password then Outcome(users, "", Some(a.id))
      else Outcome(users, BadCredentials, None)
    case None => Outcome(users, BadCredentials, None)
  }

  /** `handleSubmit`: dispatch on the form's mode. */
  function HandleSubmit(users: seq<Account>, form: Form, newId: Id, now: int): (r: Outcome)
    ensures !form.isRegistering ==> r.users == users
    ensures r.users != users ==> form.isRegistering && form.password == form.confirmPassword && |form.password| >= 6
    ensures r.loggedIn.Some? ==> r.error == ""
  {
    if form.isRegistering then Register(users, form, newId, now)
    else Login(users, form.username, form.password)
  }

  /** An account just registered can log in with the same name and password, and gets the new id. */
  lemma RegisterThenLogin(users: seq<Account>, form: Form, newId: Id, now: int)
    requires Register(users, form, newId, now).loggedIn.Some?
    ensures Login(Register(users, form, newId, now).users, form.username, form.password).loggedIn == Some(newId)
  {
    var users' := Register(users, form, newId, now).users;
    assert users'[|users|].username == form.username;
    assert forall i :: 0 <= i < |users| ==> users'[i] == users[i];
  }
}

=== FILE: sorting.dfy ===
/**
 * Ordering helpers: the numeric comparator sort `(a, b) => a - b`, the
 * stable key sort used for page lists, `Math.max` over a non-empty list, and
 * distinctness.
 */
module Sorting {
  import opened Tables

  /** `s` is in non-decreasing order of `key`. */
  predicate SortedBy<T>(s: seq<T>, key: T -> int)
  {
    forall i, j :: 0 <= i < j < |s| ==> key(s[i]) <= key(s[j])
  }

  /** `s` is in ascending numeric order. */
  predicate Ascending(s: seq<int>)
  {
    forall i, j :: 0 <= i < j < |s| ==> s[i] <= s[j]
  }

  /** No value occurs twice in `s`. */
  predicate Distinct<T(==)>(s: seq<T>)
  {
    forall i, j :: 0 <= i < j < |s| ==> s[i] != s[j]
  }

  /** Inserts `x` into `s` before the first element whose key is not smaller. */
  function InsertBy<T>(x: T, s: seq<T>, key: T -> int): (r: seq<T>)
    requires SortedBy(s, key)
    ensures SortedBy(r, key)
    ensures multiset(r) == multiset(s) + multiset{x}
    ensures |r| == |s| + 1
    ensures r[0] == x || (|s| > 0 && r[0] == s[0])
  {
    if s == [] || key(x) <= key(s[0]) then [x] + s
    else
      var rest := InsertBy(x, s[1..], key);
      assert s == [s[0]] + s[1..];
      [s[0]] + rest
  }

  /**
   * Insertion sort by `key`. An element is inserted ahead of the elements
   * with an equal key that followed it, so the sort is stable, as
   * `Array.prototype.sort` is.
   */
  function SortBy<T>(s: seq<T>, key: T -> int): (r: seq<T>)
    ensures SortedBy(r, key)
    ensures multiset(r) == multiset(s)
    ensures |r| == |s|
  {
    if s == [] then []
    else
      assert s == [s[0]] + s[1..];
      InsertBy(s[0], SortBy(s[1..], key), key)
  }

  /** The elements of key `k` in `s`, in order. */
  function KeyRun<T>(s: seq<T>, key: T -> int, k: int): seq<T>
  {
    Filter(s, KeyIs(key, k))
  }

  /** `x` alone when it has key `k`, else nothing. */
  function Single<T>(x: T, key: T -> int, k: int): seq<T>
  {
    if key(x) == k then [x] else []
  }

  /**
   * Inserting `x` ahead of every element with a key not smaller than its own
   * puts it in front of the elements sharing its key and keeps the rest in order.
   */
  lemma {:induction false} InsertByKeepsKeyOrder<T>(x: T, s: seq<T>, key: T -> int, k: int)
    requires SortedBy(s, key)
    ensures KeyRun(InsertBy(x, s, key), key, k) == Single(x, key, k) + KeyRun(s, key, k)
  {
    if s == [] || key(x) <= key(s[0]) {
      assert InsertBy(x, s, key) == [x] + s;
      FilterCons(x, s, KeyIs(key, k));
    } else {
      assert SortedBy(s[1..], key);
      InsertByKeepsKeyOrder(x, s[1..], key, k);
      assert InsertBy(x, s, key) == [s[0]] + InsertBy(x, s[1..], key);
      assert s == [s[0]] + s[1..];
      KeyRunPastHead(s[0], x, s[1..], InsertBy(x, s[1..], key), key, k);
    }
  }

  /**
   * The step of `InsertByKeepsKeyOrder` where `x` goes past a head `h` with a
   * smaller key: `h` and `x` cannot both have key `k`, so their order does not
   * show in the run of key `k`.
   */
  lemma KeyRunPastHead<T>(h: T, x: T, t: seq<T>, rest: seq<T>, key: T -> int, k: int)
    requires key(x) > key(h)
    requires KeyRun(rest, key, k) == Single(x, key, k) + KeyRun(t, key, k)
    ensures KeyRun([h] + rest, key, k) == Single(x, key, k) + KeyRun([h] + t, key, k)
  {
    FilterCons(h, rest, KeyIs(key, k));
    FilterCons(h, t, KeyIs(key, k));
    SwapSingles(Single(h, key, k), Single(x, key, k), KeyRun(t, key, k));
  }

  /** Two pieces of which at least one is empty may trade places. */
  lemma SwapSingles<T>(a: seq<T>, b: seq<T>, c: seq<T>)
    requires a == [] || b == []
    ensures a + (b + c) == b + (a + c)
  {
  }

  /** The sort is stable, as `Array.prototype.sort` is: the elements of each key keep their input order. */
  lemma {:induction false} SortByStable<T>(s: seq<T>, key: T -> int, k: int)
    ensures KeyRun(SortBy(s, key), key, k) == KeyRun(s, key, k)
  {
    if s != [] {
      SortByStable(s[1..], key, k);
      InsertByKeepsKeyOrder(s[0], SortBy(s[1..], key), key, k);
      FilterCons(s[0], s[1..], KeyIs(key, k));
      assert s == [s[0]] + s[1..];
    }
  }

  /** `pages.sort((a, b) => a - b)` on a list of integers. */
  function SortAsc(s: seq<int>): (r: seq<int>)
    ensures Ascending(r)
    ensures multiset(r) == multiset(s)
  {
    SortBy(s, x => x)
  }

  /** Sorting a list that is already in order changes nothing. */
  lemma {:induction false} SortBySorted<T>(s: seq<T>, key: T -> int)
    requires SortedBy(s, key)
    ensures SortBy(s, key) == s
  {
    if s != [] {
      SortBySorted(s[1..], key);
    }
  }

  /** `Math.max(...s)` for a non-empty list. */
  function Max(s: seq<int>): (m: int)
    requires |s| > 0
    ensures m in s
    ensures forall i :: 0 <= i < |s| ==> s[i] <= m
  {
    if |s| == 1 then s[0]
    else
      var m' := Max(s[1..]);
      assert forall i :: 1 <= i < |s| ==> s[i] == s[1..][i - 1];
      if s[0] >= m' then s[0] else m'
  }

  /** A list without repeats holds every value at most once. */
  lemma {:induction false} DistinctCounts<T>(s: seq<T>)
    requires Distinct(s)
    ensures forall x :: multiset(s)[x] <= 1
  {
    if s != [] {
      assert Distinct(s[1..]) by {
        forall i, j | 0 <= i < j < |s[1..]| ensures s[1..][i] != s[1..][j] {
          assert s[1..][i] == s[i + 1] && s[1..][j] == s[j + 1];
        }
      }
      DistinctCounts(s[1..]);
      assert s == [s[0]] + s[1..];
      assert s[0] !in s[1..];
    }
  }

  /** A list holding every value at most once has no repeats. */
  lemma CountsDistinct<T>(s: seq<T>)
    requires forall x :: multiset(s)[x] <= 1
    ensures Distinct(s)
  {
    forall i, j | 0 <= i < j < |s| ensures s[i] != s[j] {
      assert s == s[..j] + s[j..];
      assert s[i] in s[..j];
      assert s[j] == s[j..][0];
      assert multiset(s) == multiset(s[..j]) + multiset(s[j..]);
      assert multiset(s[..j])[s[i]] >= 1 && multiset(s[j..])[s[j]] >= 1;
      assert multiset(s)[s[j]] == multiset(s[..j])[s[j]] + multiset(s[j..])[s[j]] <= 1;
    }
  }
}

=== FILE: tables.dfy ===
/**
 * An object-store table seen as the sequence of its records in the store's
 * iteration order. Queries keep that order; `first()` takes the earliest match;
 * `put` replaces the record carrying the same primary key, or appends.
 */
module Tables {
  import opened Wrappers

  /** Every record of `t` satisfying `p`, in table order (an equality query's `toArray()`). */
  function Filter<T>(t: seq<T>, p: T -> bool): (r: seq<T>)
    ensures |r| <= |t|
    ensures forall i :: 0 <= i < |r| ==> p(r[i])
    ensures forall i :: 0 <= i < |r| ==> r[i] in t
    ensures forall i :: 0 <= i < |t| && p(t[i]) ==> t[i] in r
  {
    if t == [] then []
    else (if p(t[0]) then [t[0]] else []) + Filter(t[1..], p)
  }

  /** Filtering distributes over concatenation, so it keeps relative order. */
  lemma {:induction false} FilterAppend<T>(a: seq<T>, b: seq<T>, p: T -> bool)
    ensures Filter(a + b, p) == Filter(a, p) + Filter(b, p)
  {
    if a == [] {
      assert a + b == b;
    } else {
      assert (a + b)[1..] == a[1..] + b;
      FilterAppend(a[1..], b, p);
    }
  }

  /** A query returns each matching record exactly as often as the table holds it, and nothing else. */
  lemma {:induction false} FilterCounts<T>(t: seq<T>, p: T -> bool)
    ensures forall x :: multiset(Filter(t, p))[x] == if p(x) then multiset(t)[x] else 0
  {
    if t != [] {
      FilterCounts(t[1..], p);
      assert t == [t[0]] + t[1..];
      assert multiset(t) == multiset{t[0]} + multiset(t[1..]);
      assert multiset(Filter(t, p)) == multiset(if p(t[0]) then [t[0]] else []) + multiset(Filter(t[1..], p));
    }
  }

  /** A query and its complement split the table: together they return every record exactly once. */
  lemma FilterPartition<T>(t: seq<T>, p: T -> bool, q: T -> bool)
    requires forall i :: 0 <= i < |t| ==> q(t[i]) == !p(t[i])
    ensures multiset(Filter(t, p)) + multiset(Filter(t, q)) == multiset(t)
  {
    FilterCounts(t, p);
    FilterCounts(t, q);
    forall x ensures (multiset(Filter(t, p)) + multiset(Filter(t, q)))[x] == multiset(t)[x] {
      if x in t {
        var i :| 0 <= i < |t| && t[i] == x;
        assert q(x) == !p(x);
      }
    }
  }

  /** Filtering a table with one record in front: that record, if it matches, then the rest. */
  lemma FilterCons<T>(x: T, t: seq<T>, p: T -> bool)
    ensures Filter([x] + t, p) == (if p(x) then [x] else []) + Filter(t, p)
  {
    assert ([x] + t)[1..] == t;
  }

  /** A query that matches every record returns the whole table. */
  lemma {:induction false} FilterAll<T>(t: seq<T>, p: T -> bool)
    requires forall i :: 0 <= i < |t| ==> p(t[i])
    ensures Filter(t, p) == t
  {
    if t != [] {
      FilterAll(t[1..], p);
    }
  }

  /** A query that matches no record returns nothing. */
  lemma {:induction false} FilterNone<T>(t: seq<T>, p: T -> bool)
    requires forall i :: 0 <= i < |t| ==> !p(t[i])
    ensures Filter(t, p) == []
  {
    if t != [] {
      FilterNone(t[1..], p);
    }
  }

  /** Position of the earliest record satisfying `p`. */
  function FirstIndex<T>(t: seq<T>, p: T -> bool): (r: Option<nat>)
    ensures r.None? <==> forall i :: 0 <= i < |t| ==> !p(t[i])
    ensures r.Some? ==> r.value < |t| && p(t[r.value])
    ensures r.Some? ==> forall j :: 0 <= j < r.value ==> !p(t[j])
  {
    if t == [] then None
    else if p(t[0]) then Some(0)
    else match FirstIndex(t[1..], p)
      case None => None
      case Some(i) => Some(i + 1)
  }

  /** The earliest record satisfying `p` (an equality query's `first()`), or none. */
  function First<T>(t: seq<T>, p: T -> bool): (r: Option<T>)
    ensures r.None? <==> forall i :: 0 <= i < |t| ==> !p(t[i])
    ensures r.Some? ==> r.value in t && p(r.value)
    ensures r.Some? ==> exists i :: 0 <= i < |t| && t[i] == r.value && forall j :: 0 <= j < i ==> !p(t[j])
  {
    match FirstIndex(t, p)
    case None => None
    case Some(i) => Some(t[i])
  }

  /** Whether some record of `t` carries primary key `k`. */
  predicate HasKey<T, K(==)>(t: seq<T>, key: T -> K, k: K)
  {
    exists i :: 0 <= i < |t| && key(t[i]) == k
  }

  /**
   * Insert-or-replace by primary key: the earliest record whose key equals
   * `key(r)` is replaced in place by `r`; without one, `r` is appended.
   */
  function Put<T, K(==)>(t: seq<T>, key: T -> K, r: T): (u: seq<T>)
    ensures !HasKey(t, key, key(r)) ==> u == t + [r]
    ensures |u| == |t| || |u| == |t| + 1
  {
    if t == [] then [r]
    else if key(t[0]) == key(r) then [r] + t[1..]
    else
      assert HasKey(t[1..], key, key(r)) ==> HasKey(t, key, key(r)) by {
        if HasKey(t[1..], key, key(r)) {
          var i :| 0 <= i < |t[1..]| && key(t[1..][i]) == key(r);
          assert key(t[i + 1]) == key(r);
        }
      }
      [t[0]] + Put(t[1..], key, r)
  }

  /** A put overwrites the earliest record carrying the key, in place. */
  lemma {:induction false} PutReplacesFirst<T, K>(t: seq<T>, key: T -> K, r: T, i: nat)
    requires i < |t| && key(t[i]) == key(r)
    requires forall j :: 0 <= j < i ==> key(t[j]) != key(r)
    ensures Put(t, key, r) == t[i := r]
  {
    if i > 0 {
      PutReplacesFirst(t[1..], key, r, i - 1);
      assert t[i := r] == [t[0]] + t[1..][i - 1 := r];
    }
  }

  /** A put keeps every record whose key differs from the one written, and adds nothing but the record written. */
  lemma {:induction false} PutKeepsOthers<T, K>(t: seq<T>, key: T -> K, r: T)
    ensures r in Put(t, key, r)
    ensures forall i :: 0 <= i < |t| && key(t[i]) != key(r) ==> t[i] in Put(t, key, r)
    ensures forall x :: x in Put(t, key, r) ==> x == r || x in t
  {
    if t != [] && key(t[0]) != key(r) {
      PutKeepsOthers(t[1..], key, r);
      assert forall i :: 1 <= i < |t| ==> t[i] == t[1..][i - 1];
      assert Put(t, key, r) == [t[0]] + Put(t[1..], key, r);
      forall x | x in Put(t, key, r) ensures x == r || x in t {
        if x != t[0] {
          assert x in Put(t[1..], key, r);
          assert x == r || x in t[1..];
        }
      }
    } else if t != [] {
      assert Put(t, key, r) == [r] + t[1..];
      forall x | x in Put(t, key, r) ensures x == r || x in t {
        if x != r {
          assert x in t[1..];
        }
      }
    }
  }

  /** The query "field `key` equals `k`"; for a primary key, at most one record matches. */
  function KeyIs<T, K(==)>(key: T -> K, k: K): T -> bool
  {
    x => key(x) == k
  }

  /** `where(field).equals(v).first()`: finds a record exactly when one has the value, and what it finds has it. */
  function FindBy<T, K(==)>(t: seq<T>, field: T -> K, v: K): (r: Option<T>)
    ensures r.None? <==> forall i :: 0 <= i < |t| ==> field(t[i]) != v
    ensures r.Some? ==> r.value in t && field(r.value) == v
  {
    First(t, KeyIs(field, v))
  }

  /** A put on a key the table holds overwrites one record carrying that key and leaves the length alone. */
  lemma PutReplaces<T, K>(t: seq<T>, key: T -> K, r: T)
    requires HasKey(t, key, key(r))
    ensures exists i :: 0 <= i < |t| && key(t[i]) == key(r) && Put(t, key, r) == t[i := r]
  {
    var i := FirstIndex(t, KeyIs(key, key(r))).value;
    PutReplacesFirst(t, key, r, i);
  }

  /** After a put, looking the record up by its key finds it. */
  lemma PutThenFind<T, K>(t: seq<T>, key: T -> K, r: T)
    ensures First(Put(t, key, r), KeyIs(key, key(r))) == Some(r)
  {
    forall j | 0 <= j < |t| && KeyIs(key, key(r))(t[j]) ensures exists k :: 0 <= k <= j && key(t[k]) == key(r) {
      assert key(t[j]) == key(r);
    }
    PutThenFirst(t, key, r, KeyIs(key, key(r)));
  }

  /**
   * After a put, a `first()` query that `r` satisfies yields `r`, provided no
   * record matching the query sits before the slot the put writes to.
   */
  lemma {:induction false} PutThenFirst<T, K>(t: seq<T>, key: T -> K, r: T, p: T -> bool)
    requires p(r)
    requires forall j :: 0 <= j < |t| && p(t[j]) ==> exists k :: 0 <= k <= j && key(t[k]) == key(r)
    ensures First(Put(t, key, r), p) == Some(r)
  {
    if t == [] {
      assert Put(t, key, r) == [r];
    } else if key(t[0]) == key(r) {
      assert Put(t, key, r) == [r] + t[1..];
    } else {
      assert !p(t[0]);
      var tail := t[1..];
      forall j | 0 <= j < |tail| && p(tail[j])
        ensures exists k :: 0 <= k <= j && key(tail[k]) == key(r)
      {
        assert p(t[j + 1]);
        var k :| 0 <= k <= j + 1 && key(t[k]) == key(r);
        assert key(tail[k - 1]) == key(r);
      }
      PutThenFirst(tail, key, r, p);
      var u := Put(t, key, r);
      assert u == [t[0]] + Put(tail, key, r);
      assert u[1..] == Put(tail, key, r);
      var i := FirstIndex(Put(tail, key, r), p).value;
      assert FirstIndex(u, p) == Some(i + 1);
    }
  }
}

=== FILE: text.dfy ===
/** String helpers the handlers rely on: number formatting, `slice` and `trim`. */
module Text {

  /** The decimal digit for `d`. */
  function DigitChar(d: nat): (c: char)
    requires d < 10
    ensures '0' <= c <= '9'
    ensures DigitValue(c) == d
  {
    (d + '0' as int) as char
  }

  /** The value of a decimal digit character. */
  function DigitValue(c: char): nat
    requires '0' <= c <= '9'
  {
    c as int - '0' as int
  }

  /** A non-empty run of decimal digits. */
  predicate IsDigits(s: string)
  {
    |s| > 0 && forall i :: 0 <= i < |s| ==> '0' <= s[i] <= '9'
  }

  /** The number a run of decimal digits denotes, as `Number(s)` reads it. */
  function DigitsValue(s: string): nat
    requires IsDigits(s)
    decreases |s|
  {
    if |s| == 1 then DigitValue(s[0])
    else DigitsValue(s[..|s| - 1]) * 10 + DigitValue(s[|s| - 1])
  }

  /** The number `String(n)`'s output reads back as: an optional minus sign, then digits. */
  function NumberValue(s: string): int
    requires IsDigits(s) || (|s| > 1 && s[0] == '-' && IsDigits(s[1..]))
  {
    if s[0] == '-' then 0 - DigitsValue(s[1..]) as int else DigitsValue(s)
  }

  /** Decimal form of a natural number, without leading zeros. */
  function NatToString(n: nat): (r: string)
    ensures |r| > 0
    ensures forall i :: 0 <= i < |r| ==> '0' <= r[i] <= '9'
    ensures |r| > 1 ==> r[0] != '0'
    decreases n
  {
    if n < 10 then [DigitChar(n)]
    else
      var prefix := NatToString(n / 10);
      prefix + [DigitChar(n % 10)]
  }

  /** `String(n)` / `${n}` for an integer-valued number. */
  function IntToString(n: int): (r: string)
    ensures |r| > 0
    ensures n < 0 <==> r[0] == '-'
    ensures IsDigits(r) || (|r| > 1 && r[0] == '-' && IsDigits(r[1..]))
  {
    if n < 0 then "-" + NatToString(-n) else NatToString(n)
  }

  /** The digits of `NatToString(n)` denote `n`. */
  lemma {:induction false} NatToStringValue(n: nat)
    ensures DigitsValue(NatToString(n)) == n
    decreases n
  {
    if n >= 10 {
      NatToStringValue(n / 10);
      var r := NatToString(n);
      assert r[..|r| - 1] == NatToString(n / 10);
    }
  }

  /** Reading back `String(n)` gives `n`. */
  lemma IntToStringValue(n: int)
    ensures NumberValue(IntToString(n)) == n
  {
    if n < 0 {
      var d := NatToString(-n);
      NatToStringValue(-n);
      assert IntToString(n) == "-" + d;
      assert ("-" + d)[0] == '-' && ("-" + d)[1..] == d;
    } else {
      NatToStringValue(n);
    }
  }

  /** Different numbers print differently. */
  lemma IntToStringInjective(a: int, b: int)
    requires IntToString(a) == IntToString(b)
    ensures a == b
  {
    IntToStringValue(a);
    IntToStringValue(b);
  }

  /** `s.slice(0, n)`: the first `n` characters, or all of `s` when shorter. */
  function Truncate(s: string, n: nat): (r: string)
    ensures |r| <= n
    ensures r <= s
    ensures |s| <= n ==> r == s
    ensures |s| > n ==> |r| == n
  {
    if |s| <= n then s else s[..n]
  }

  /** The characters `String.prototype.trim` strips: white space and line terminators. */
  predicate IsWhitespace(c: char)
  {
    var n := c as int;
    // tab, line feed, vertical tab, form feed, carriage return, space
    (9 <= n <= 13) || n == 0x20
    // no-break space, Ogham space mark, the en quad .. hair space block
    || n == 0xA0 || n == 0x1680 || (0x2000 <= n <= 0x200A)
    // line and paragraph separators, narrow no-break, medium mathematical, ideographic space
    || n == 0x2028 || n == 0x2029 || n == 0x202F || n == 0x205F || n == 0x3000
    // zero-width no-break space (byte order mark)
    || n == 0xFEFF
  }

  /** Every character of `s` is white space (vacuously so for the empty string). */
  predicate AllWhitespace(s: string)
  {
    forall i :: 0 <= i < |s| ==> IsWhitespace(s[i])
  }

  /** `s` with leading white space removed. */
  function TrimStart(s: string): (r: string)
    ensures |r| <= |s|
    ensures r == s[|s| - |r|..]
    ensures r == [] || !IsWhitespace(r[0])
    ensures AllWhitespace(s[..|s| - |r|])
  {
    if s == [] || !IsWhitespace(s[0]) then s
    else
      var r := TrimStart(s[1..]);
      assert s[..|s| - |r|] == [s[0]] + s[1..][..|s[1..]| - |r|];
      r
  }

  /** `s` with trailing white space removed. */
  function TrimEnd(s: string): (r: string)
    ensures |r| <= |s|
    ensures r == s[..|r|]
    ensures r == [] || !IsWhitespace(r[|r| - 1])
    ensures AllWhitespace(s[|r|..])
  {
    if s == [] || !IsWhitespace(s[|s| - 1]) then s
    else
      var r := TrimEnd(s[..|s| - 1]);
      assert s[|r|..] == s[..|s| - 1][|r|..] + [s[|s| - 1]];
      r
  }

  /** `s.trim()`. */
  function Trim(s: string): (r: string)
  {
    TrimEnd(TrimStart(s))
  }

  /** `!s.trim()` holds exactly when `s` is empty or consists of white space only. */
  lemma TrimEmptyIffBlank(s: string)
    ensures Trim(s) == [] <==> AllWhitespace(s)
  {
    var t := TrimStart(s);
    var k := |s| - |t|;
    assert forall i :: k <= i < |s| ==> s[i] == t[i - k];
    assert AllWhitespace(s) ==> t == [] by {
      if t != [] {
        assert s[k] == t[0];
      }
    }
    assert TrimEnd(t) == [] ==> AllWhitespace(t) by {
      assert t[0..] == t;
    }
  }
}

=== FILE: workspace.dfy ===
/**
 * The workspace manager: workspaces that own a list of page numbers, and
 * per-page content records with style metadata, over an abstract store of
 * two tables. Every operation is one atomic transition that returns the new
 * store, a result, or an error. Record ids and timestamps come from the
 * caller (`newId`, `now`) instead of `crypto.randomUUID()` and `new Date()`.
 */
module Workspace {
  import opened Wrappers
  import opened Tables
  import opened Sorting

  type Id = string

  datatype TextStyle = TextStyle(bold: bool, italic: bool, underline: bool)

  /** The style fields every stored content record carries. */
  datatype Styles = Styles(fontFamily: string, fontSize: string, fontColor: string, textAlign: string, textStyle: TextStyle)

  /** Style fields as a caller supplies them: each may be missing. */
  datatype StylesInput = StylesInput(
    fontFamily: Option<string>,
    fontSize: Option<string>,
    fontColor: Option<string>,
    textAlign: Option<string>,
    textStyle: Option<TextStyle>)

  /** What `savePageContent`/`savePageData` receive: the styles object itself may be missing. */
  datatype PageInput = PageInput(pageNumber: int, content: string, styles: Option<StylesInput>)

  /** What `getPageContent`/`getPageData` return. */
  datatype PageData = PageData(pageNumber: int, content: string, styles: Styles)

  datatype Workspace = Workspace(id: Id, userId: Id, name: string, pages: seq<int>, createdAt: int, updatedAt: int)

  datatype Content = Content(
    id: Id,
    workspaceId: Id,
    pageNumber: int,
    content: string,
    styles: Styles,
    createdAt: int,
    updatedAt: int)

  /** A partial content record handed to `saveContent`: its id and creation time may be missing. */
  datatype ContentDraft = ContentDraft(id: Option<Id>, pageNumber: int, content: string, styles: Styles, createdAt: Option<int>)

  /** The fields an `updateWorkspace` call may set; absent fields are left alone. */
  datatype WorkspacePatch = WorkspacePatch(userId: Option<Id>, name: Option<string>, pages: Option<seq<int>>, createdAt: Option<int>)

  /**
   * The two tables: workspaces by primary key, and content records in the
   * store's iteration order (the order a compound-index `first()` sees).
   */
  datatype Store = Store(workspaces: map<Id, Workspace>, contents: seq<Content>)

  datatype Error =
    | WorkspaceNotFound          // 'Workspace not found'
    | PageNumberMismatch         // 'Page number mismatch'
    | ExistingPageNumberMismatch // 'Existing page number mismatch'
    | KeyExists                  // the store rejects `add` of a key already present

  const DefaultStyles := Styles("Crimson Text", "16px", "#000000", "left", TextStyle(false, false, false))

  // ---------------------------------------------------------------- queries

  function ContentKey(c: Content): Id { c.id }

  function InWorkspace(wsId: Id): Content -> bool { (c: Content) => c.workspaceId == wsId }

  function OutsideWorkspace(wsId: Id): Content -> bool { (c: Content) => c.workspaceId != wsId }

  /** The compound-index query `[workspaceId, pageNumber] = [wsId, n]`. */
  function OnPage(wsId: Id, n: int): Content -> bool { (c: Content) => c.workspaceId == wsId && c.pageNumber == n }

  function OffPage(wsId: Id, n: int): Content -> bool { (c: Content) => !(c.workspaceId == wsId && c.pageNumber == n) }

  /** `.where(['workspaceId', 'pageNumber']).equals([wsId, n]).first()` */
  function FindPage(t: seq<Content>, wsId: Id, n: int): (r: Option<Content>)
    ensures r.None? <==> forall i :: 0 <= i < |t| ==> !(t[i].workspaceId == wsId && t[i].pageNumber == n)
    ensures r.Some? ==> r.value in t && r.value.workspaceId == wsId && r.value.pageNumber == n
  {
    First(t, OnPage(wsId, n))
  }

  // ------------------------------------------------------------ page lists

  /** `pages.push(n); pages.sort((a, b) => a - b)` */
  function PushSorted(pages: seq<int>, n: int): (r: seq<int>)
    ensures Ascending(r)
    ensures multiset(r) == multiset(pages) + multiset{n}
  {
    SortAsc(pages + [n])
  }

  /** The page-list step of `savePageContent`: insert `n` if absent, then sort. */
  function AddPage(pages: seq<int>, n: int): (r: seq<int>)
    ensures n in r
    ensures n in pages ==> r == pages
    ensures n !in pages ==> Ascending(r) && multiset(r) == multiset(pages) + multiset{n}
  {
    if n in pages then pages else
      var r := PushSorted(pages, n);
      assert n in multiset(r);
      r
  }

  /** Pushing a number the list lacks onto a list without repeats, then sorting, leaves no repeats. */
  lemma PushSortedKeepsDistinct(pages: seq<int>, n: int)
    requires Distinct(pages) && n !in pages
    ensures Distinct(PushSorted(pages, n))
  {
    var r := PushSorted(pages, n);
    DistinctCounts(pages);
    assert forall x :: multiset(r)[x] <= 1 by {
      forall x ensures multiset(r)[x] <= 1 {
        if x == n {
          assert multiset(pages)[n] == 0;
        }
      }
    }
    CountsDistinct(r);
  }

  /** A strictly ascending page list (sorted, no repeats) stays so, gaining exactly `n`. */
  lemma AddPageKeepsStrict(pages: seq<int>, n: int)
    requires Ascending(pages) && Distinct(pages)
    ensures Ascending(AddPage(pages, n)) && Distinct(AddPage(pages, n))
    ensures forall x :: x in AddPage(pages, n) <==> x in pages || x == n
  {
    var r := AddPage(pages, n);
    if n !in pages {
      PushSortedKeepsDistinct(pages, n);
      forall x ensures x in r <==> x in pages || x == n {
        assert x in r <==> x in multiset(r);
        assert x in pages <==> x in multiset(pages);
      }
    }
  }

  /** A number larger than every listed page lands at the end of a sorted list. */
  lemma PushSortedAppendsLargest(pages: seq<int>, n: int)
    requires Ascending(pages)
    requires forall i :: 0 <= i < |pages| ==> pages[i] < n
    ensures PushSorted(pages, n) == pages + [n]
  {
    SortBySorted(pages + [n], x => x);
  }

  // ---------------------------------------------------------------- styles

  /** `v || default` for a possibly missing string: missing and empty both fall back. */
  function OrDefault(v: Option<string>, default: string): string
  {
    if v.Some? && v.value != "" then v.value else default
  }

  /** A string field was supplied and is truthy. */
  predicate Supplied(v: Option<string>)
  {
    v.Some? && v.value != ""
  }

  /** The `data.styles?.field || default` fill-in of `savePageContent` and `savePageData`. */
  function FillStyles(input: Option<StylesInput>): (r: Styles)
    ensures input.None? ==> r == DefaultStyles
    ensures input.Some? && Supplied(input.value.fontFamily) ==> r.fontFamily == input.value.fontFamily.value
    ensures input.Some? && Supplied(input.value.fontSize) ==> r.fontSize == input.value.fontSize.value
    ensures input.Some? && Supplied(input.value.fontColor) ==> r.fontColor == input.value.fontColor.value
    ensures input.Some? && Supplied(input.value.textAlign) ==> r.textAlign == input.value.textAlign.value
    ensures input.Some? && input.value.textStyle.Some? ==> r.textStyle == input.value.textStyle.value
    ensures !(input.Some? && Supplied(input.value.fontFamily)) ==> r.fontFamily == "Crimson Text"
    ensures !(input.Some? && Supplied(input.value.fontSize)) ==> r.fontSize == "16px"
    ensures !(input.Some? && Supplied(input.value.fontColor)) ==> r.fontColor == "#000000"
    ensures !(input.Some? && Supplied(input.value.textAlign)) ==> r.textAlign == "left"
    ensures !(input.Some? && input.value.textStyle.Some?) ==> r.textStyle == TextStyle(false, false, false)
  {
    match input
    case None => DefaultStyles
    case Some(st) =>
      Styles(
        OrDefault(st.fontFamily, DefaultStyles.fontFamily),
        OrDefault(st.fontSize, DefaultStyles.fontSize),
        OrDefault(st.fontColor, DefaultStyles.fontColor),
        OrDefault(st.textAlign, DefaultStyles.textAlign),
        st.textStyle.GetOr(DefaultStyles.textStyle))
  }

  /** A complete styles object, as a caller would pass it. */
  function AsInput(st: Styles): StylesInput
  {
    StylesInput(Some(st.fontFamily), Some(st.fontSize), Some(st.fontColor), Some(st.textAlign), Some(st.textStyle))
  }

  /** No stored style string is ever empty. */
  predicate NonEmptyStyles(st: Styles)
  {
    st.fontFamily != "" && st.fontSize != "" && st.fontColor != "" && st.textAlign != ""
  }

  /**
   * Filling in a complete styles object with no empty strings keeps it, and
   * every filled-in result is such an object, so filling is idempotent.
   */
  lemma FillStylesKeepsComplete(st: Styles)
    requires NonEmptyStyles(st)
    ensures FillStyles(Some(AsInput(st))) == st
    ensures NonEmptyStyles(FillStyles(Some(AsInput(st))))
  {
  }

  /** Every filled-in styles object is complete, so filling it again changes nothing. */
  lemma FillStylesIdempotent(input: Option<StylesInput>)
    ensures NonEmptyStyles(FillStyles(input))
    ensures FillStyles(Some(AsInput(FillStyles(input)))) == FillStyles(input)
  {
  }

  // ------------------------------------------------------ workspace lifecycle

  /** `createWorkspace`: a new workspace holding page 1; `add` rejects a taken id. */
  function CreateWorkspace(s: Store, id: Id, userId: Id, name: string, now: int): (r: Result<(Store, Workspace), Error>)
    ensures id in s.workspaces <==> r.Failure?
    ensures r.Failure? ==> r.error == KeyExists
    ensures r.Success? ==> r.value.1.pages == [1] && r.value.1.userId == userId && r.value.1.name == name
    ensures r.Success? ==> r.value.1.id == id && r.value.1.createdAt == r.value.1.updatedAt == now
    ensures r.Success? ==> r.value.0.workspaces.Keys == s.workspaces.Keys + {id}
    ensures r.Success? ==> r.value.0.workspaces[id] == r.value.1
    ensures r.Success? ==> forall k :: k in s.workspaces ==> r.value.0.workspaces[k] == s.workspaces[k]
    ensures r.Success? ==> r.value.0.contents == s.contents
  {
    if id in s.workspaces then Failure(KeyExists)
    else
      var w := Workspace(id, userId, name, [1], now, now);
      Success((s.(workspaces := s.workspaces[id := w]), w))
  }

  /** `getUserWorkspaces`: the workspaces owned by `userId` (order unspecified). */
  function GetUserWorkspaces(s: Store, userId: Id): (r: set<Workspace>)
    ensures forall w :: w in r ==> w.userId == userId
    ensures forall w :: w in r ==> exists k :: k in s.workspaces && s.workspaces[k] == w
    ensures forall k :: k in s.workspaces && s.workspaces[k].userId == userId ==> s.workspaces[k] in r
  {
    set k | k in s.workspaces && s.workspaces[k].userId == userId :: s.workspaces[k]
  }

  /** A created workspace is listed for its owner, next to the ones listed before. */
  lemma CreatedWorkspaceListed(s: Store, id: Id, userId: Id, name: string, now: int)
    requires id !in s.workspaces
    ensures CreateWorkspace(s, id, userId, name, now).Success?
    ensures var (s', w) := CreateWorkspace(s, id, userId, name, now).value;
      GetUserWorkspaces(s', userId) == GetUserWorkspaces(s, userId) + {w}
  {
    var (s', w) := CreateWorkspace(s, id, userId, name, now).value;
    assert s'.workspaces[id] == w;
    assert forall k :: k in s'.workspaces && k != id ==> k in s.workspaces;
  }

  /** `getWorkspace`: the record, or nothing for a missing id (never an error). */
  function GetWorkspace(s: Store, id: Id): (r: Option<Workspace>)
    ensures r.Some? <==> id in s.workspaces
    ensures r.Some? ==> r.value == s.workspaces[id]
  {
    if id in s.workspaces then Some(s.workspaces[id]) else None
  }

  /** `getWorkspace` after `createWorkspace` reads the created record; every other id reads as before. */
  lemma GetAfterCreate(s: Store, id: Id, userId: Id, name: string, now: int)
    requires id !in s.workspaces
    ensures GetWorkspace(CreateWorkspace(s, id, userId, name, now).value.0, id) == Some(Workspace(id, userId, name, [1], now, now))
    ensures forall k :: k != id ==> GetWorkspace(CreateWorkspace(s, id, userId, name, now).value.0, k) == GetWorkspace(s, k)
  {
  }

  /**
   * `updateWorkspace`: merges the supplied fields and stamps `updatedAt`.
   * The store's `update` resolves without effect for a missing key.
   */
  function UpdateWorkspace(s: Store, id: Id, patch: WorkspacePatch, now: int): (r: Store)
    ensures id !in s.workspaces ==> r == s
    ensures r.workspaces.Keys == s.workspaces.Keys && r.contents == s.contents
    ensures forall k :: k in s.workspaces && k != id ==> r.workspaces[k] == s.workspaces[k]
    ensures id in s.workspaces ==>
      var (w, w') := (s.workspaces[id], r.workspaces[id]);
      && w'.id == w.id
      && w'.updatedAt == now
      && w'.userId == patch.userId.GetOr(w.userId)
      && w'.name == patch.name.GetOr(w.name)
      && w'.pages == patch.pages.GetOr(w.pages)
      && w'.createdAt == patch.createdAt.GetOr(w.createdAt)
  {
    if id !in s.workspaces then s
    else
      var w := s.workspaces[id];
      var w' := w.(
        userId := patch.userId.GetOr(w.userId),
        name := patch.name.GetOr(w.name),
        pages := patch.pages.GetOr(w.pages),
        createdAt := patch.createdAt.GetOr(w.createdAt),
        updatedAt := now);
      s.(workspaces := s.workspaces[id := w'])
  }

  /**
   * `getWorkspace` after `updateWorkspace` reads the merged record, or still
   * nothing for a missing id; every other id reads as before.
   */
  lemma GetAfterUpdate(s: Store, id: Id, patch: WorkspacePatch, now: int)
    ensures id !in s.workspaces ==> GetWorkspace(UpdateWorkspace(s, id, patch, now), id).None?
    ensures id in s.workspaces ==>
      var w := s.workspaces[id];
      GetWorkspace(UpdateWorkspace(s, id, patch, now), id) == Some(Workspace(id := w.id,
        userId := patch.userId.GetOr(w.userId), name := patch.name.GetOr(w.name),
        pages := patch.pages.GetOr(w.pages), createdAt := patch.createdAt.GetOr(w.createdAt), updatedAt := now))
    ensures forall k :: k != id ==> GetWorkspace(UpdateWorkspace(s, id, patch, now), k) == GetWorkspace(s, k)
  {
  }

  /** An update that supplies no page list, or a strictly ascending one, keeps the page list strictly ascending. */
  lemma UpdateKeepsPagesStrict(s: Store, id: Id, patch: WorkspacePatch, now: int)
    requires id in s.workspaces
    requires Ascending(s.workspaces[id].pages) && Distinct(s.workspaces[id].pages)
    requires patch.pages.Some? ==> Ascending(patch.pages.value) && Distinct(patch.pages.value)
    ensures var w' := UpdateWorkspace(s, id, patch, now).workspaces[id];
      Ascending(w'.pages) && Distinct(w'.pages)
  {
  }

  /** The record `saveContent` writes for `draft`. */
  function DraftRecord(wsId: Id, draft: ContentDraft, newId: Id, now: int): Content
  {
    var id := if draft.id.Some? && draft.id.value != "" then draft.id.value else newId;
    Content(id, wsId, draft.pageNumber, draft.content, draft.styles, draft.createdAt.GetOr(now), now)
  }

  /** The table effect of `saveContent`: put the completed draft by its id. */
  function PutDraft(t: seq<Content>, wsId: Id, draft: ContentDraft, newId: Id, now: int): (r: seq<Content>)
    ensures DraftRecord(wsId, draft, newId, now) in r
    ensures !HasKey(t, ContentKey, DraftRecord(wsId, draft, newId, now).id) ==> r == t + [DraftRecord(wsId, draft, newId, now)]
    ensures forall i :: 0 <= i < |t| && t[i].id != DraftRecord(wsId, draft, newId, now).id ==> t[i] in r
    ensures |t| <= |r| <= |t| + 1
    ensures forall x :: x in r ==> x == DraftRecord(wsId, draft, newId, now) || x in t
    ensures HasKey(t, ContentKey, DraftRecord(wsId, draft, newId, now).id) ==>
      exists i :: 0 <= i < |t| && t[i].id == DraftRecord(wsId, draft, newId, now).id && r == t[i := DraftRecord(wsId, draft, newId, now)]
  {
    var rec := DraftRecord(wsId, draft, newId, now);
    PutKeepsOthers(t, ContentKey, rec);
    if HasKey(t, ContentKey, rec.id) then
      PutReplaces(t, ContentKey, rec);
      Put(t, ContentKey, rec)
    else
      Put(t, ContentKey, rec)
  }

  /**
   * `saveContent`: stores a (possibly partial) record under `wsId`, keeping a
   * supplied id and creation time and stamping `updatedAt`.
   */
  function SaveContent(s: Store, wsId: Id, draft: ContentDraft, newId: Id, now: int): (r: Store)
    ensures r.workspaces == s.workspaces
    ensures exists c :: (c in r.contents && c.workspaceId == wsId && c.pageNumber == draft.pageNumber
      && c.content == draft.content && c.styles == draft.styles && c.updatedAt == now
      && c.id == (if draft.id.Some? && draft.id.value != "" then draft.id.value else newId)
      && c.createdAt == draft.createdAt.GetOr(now))
    ensures var id := if draft.id.Some? && draft.id.value != "" then draft.id.value else newId;
      forall i :: 0 <= i < |s.contents| && s.contents[i].id != id ==> s.contents[i] in r.contents
    ensures forall x :: x in r.contents ==> x in s.contents || x == DraftRecord(wsId, draft, newId, now)
    ensures var id := if draft.id.Some? && draft.id.value != "" then draft.id.value else newId;
      HasKey(s.contents, ContentKey, id) ==>
        exists i :: 0 <= i < |s.contents| && s.contents[i].id == id && r.contents == s.contents[i := DraftRecord(wsId, draft, newId, now)]
  {
    s.(contents := PutDraft(s.contents, wsId, draft, newId, now))
  }

  /** `getWorkspaceContent`: every content record of the workspace, in table order. */
  function GetWorkspaceContent(s: Store, wsId: Id): (r: seq<Content>)
    ensures forall i :: 0 <= i < |r| ==> r[i].workspaceId == wsId && r[i] in s.contents
    ensures forall i :: 0 <= i < |s.contents| && s.contents[i].workspaceId == wsId ==> s.contents[i] in r
    ensures forall c :: multiset(r)[c] == if c.workspaceId == wsId then multiset(s.contents)[c] else 0
  {
    FilterCounts(s.contents, InWorkspace(wsId));
    Filter(s.contents, InWorkspace(wsId))
  }

  /**
   * `deleteWorkspace`: removes the workspace and, in the same step, every
   * content record that references it; everything else stays.
   */
  function DeleteWorkspace(s: Store, wsId: Id): (r: Store)
    ensures wsId !in r.workspaces
    ensures r.workspaces == s.workspaces - {wsId}
    ensures forall i :: 0 <= i < |r.contents| ==> r.contents[i].workspaceId != wsId && r.contents[i] in s.contents
    ensures forall i :: 0 <= i < |s.contents| && s.contents[i].workspaceId != wsId ==> s.contents[i] in r.contents
    ensures multiset(r.contents) + multiset(GetWorkspaceContent(s, wsId)) == multiset(s.contents)
  {
    FilterPartition(s.contents, InWorkspace(wsId), OutsideWorkspace(wsId));
    Store(s.workspaces - {wsId}, Filter(s.contents, OutsideWorkspace(wsId)))
  }

  /** After a cascading delete a content query on the workspace finds nothing. */
  lemma DeleteWorkspaceLeavesNoContent(s: Store, wsId: Id)
    ensures GetWorkspaceContent(DeleteWorkspace(s, wsId), wsId) == []
  {
    FilterNone(DeleteWorkspace(s, wsId).contents, InWorkspace(wsId));
  }

  // ---------------------------------------------------------- import/export

  /** `exportWorkspace`: the workspace's content records, as a list (serialisation left out). */
  function ExportWorkspace(s: Store, wsId: Id): (r: seq<Content>)
    ensures |r| <= |s.contents|
    ensures forall c :: c in r <==> c in s.contents && c.workspaceId == wsId
    ensures forall c :: multiset(r)[c] == if c.workspaceId == wsId then multiset(s.contents)[c] else 0
  {
    GetWorkspaceContent(s, wsId)
  }

  /** An exported record re-saved with a new id under workspace `wsId`. */
  function Imported(c: Content, wsId: Id, id: Id, now: int): (r: Content)
  {
    c.(id := id, workspaceId := wsId, updatedAt := now)
  }

  /** Two records agree on everything but their identity and modification time. */
  predicate SameData(a: Content, b: Content)
  {
    a.pageNumber == b.pageNumber && a.content == b.content && a.styles == b.styles && a.createdAt == b.createdAt
  }

  /** The records an import produces, in input order. */
  function ImportedAll(records: seq<Content>, wsId: Id, ids: seq<Id>, now: int): (r: seq<Content>)
    requires |ids| == |records|
    ensures |r| == |records|
    ensures forall i :: 0 <= i < |r| ==> SameData(r[i], records[i]) && r[i].id == ids[i] && r[i].workspaceId == wsId
  {
    if records == [] then []
    else [Imported(records[0], wsId, ids[0], now)] + ImportedAll(records[1..], wsId, ids[1..], now)
  }

  /** The import loop: one `saveContent` per record, each with its own new id. */
  function ImportContents(t: seq<Content>, wsId: Id, records: seq<Content>, ids: seq<Id>, now: int): (r: seq<Content>)
    requires |ids| == |records|
    ensures |t| <= |r| <= |t| + |records|
    decreases |records|
  {
    if records == [] then t
    else
      var draft := ContentDraft(Some(ids[0]), records[0].pageNumber, records[0].content, records[0].styles, Some(records[0].createdAt));
      ImportContents(PutDraft(t, wsId, draft, ids[0], now), wsId, records[1..], ids[1..], now)
  }

  /**
   * `importWorkspace`: creates a newId workspace and saves every record into
   * it under new ids. The new workspace's page list stays `[1]`.
   */
  function ImportWorkspace(s: Store, userId: Id, name: string, records: seq<Content>, wsId: Id, ids: seq<Id>, now: int): (r: Result<Store, Error>)
    requires |ids| == |records|
    ensures wsId in s.workspaces <==> r.Failure?
    ensures r.Success? ==> wsId in r.value.workspaces && r.value.workspaces[wsId].pages == [1]
    ensures r.Success? ==> r.value.workspaces == s.workspaces[wsId := Workspace(wsId, userId, name, [1], now, now)]
    ensures r.Success? ==> r.value.contents == ImportContents(s.contents, wsId, records, ids, now)
  {
    match CreateWorkspace(s, wsId, userId, name, now)
    case Failure(e) => Failure(e)
    case Success((s1, w)) => Success(s1.(contents := ImportContents(s1.contents, w.id, records, ids, now)))
  }

  /** With ids new to the table and to each other, the import appends its records in order. */
  lemma {:induction false} ImportContentsAppends(t: seq<Content>, wsId: Id, records: seq<Content>, ids: seq<Id>, now: int)
    requires |ids| == |records|
    requires Distinct(ids)
    requires forall i :: 0 <= i < |ids| ==> !HasKey(t, ContentKey, ids[i])
    ensures ImportContents(t, wsId, records, ids, now) == t + ImportedAll(records, wsId, ids, now)
    decreases |records|, 1
  {
    if records != [] {
      var rec := Imported(records[0], wsId, ids[0], now);
      var rest := ImportedAll(records[1..], wsId, ids[1..], now);
      assert ImportedAll(records, wsId, ids, now) == [rec] + rest;
      ImportAppendsFirst(t, wsId, records, ids, now);
      SeqAssoc(t, [rec], rest);
    } else {
      assert t + [] == t;
    }
  }

  /** The import loop keeps every record whose id is not one of the new ids. */
  lemma {:induction false} ImportKeepsOthers(t: seq<Content>, wsId: Id, records: seq<Content>, ids: seq<Id>, now: int)
    requires |ids| == |records|
    ensures forall i :: 0 <= i < |t| && t[i].id !in ids ==> t[i] in ImportContents(t, wsId, records, ids, now)
    decreases |records|
  {
    if records != [] {
      var draft := ContentDraft(Some(ids[0]), records[0].pageNumber, records[0].content, records[0].styles, Some(records[0].createdAt));
      var t' := PutDraft(t, wsId, draft, ids[0], now);
      ImportKeepsOthers(t', wsId, records[1..], ids[1..], now);
      forall i | 0 <= i < |t| && t[i].id !in ids ensures t[i] in ImportContents(t, wsId, records, ids, now) {
        assert DraftRecord(wsId, draft, ids[0], now).id == ids[0];
        assert t[i] in t';
        var j :| 0 <= j < |t'| && t'[j] == t[i];
        assert t'[j].id !in ids[1..];
      }
    }
  }

  /** Concatenation regrouped. */
  lemma SeqAssoc<T>(a: seq<T>, b: seq<T>, c: seq<T>)
    ensures (a + b) + c == a + (b + c)
  {
  }

  /** One round of the import: the first record goes to the end, the rest follow by induction. */
  lemma {:induction false} ImportAppendsFirst(t: seq<Content>, wsId: Id, records: seq<Content>, ids: seq<Id>, now: int)
    requires |ids| == |records| > 0
    requires Distinct(ids)
    requires forall i :: 0 <= i < |ids| ==> !HasKey(t, ContentKey, ids[i])
    ensures ImportContents(t, wsId, records, ids, now)
      == (t + [Imported(records[0], wsId, ids[0], now)]) + ImportedAll(records[1..], wsId, ids[1..], now)
    decreases |records|, 0
  {
    var rec := Imported(records[0], wsId, ids[0], now);
    ImportFirstStep(t, wsId, records, ids, now);
    ImportStepKeepsIdsNew(t, rec, ids);
    ImportContentsAppends(t + [rec], wsId, records[1..], ids[1..], now);
  }

  /** The first round of the import loop appends the first record under its new id. */
  lemma ImportFirstStep(t: seq<Content>, wsId: Id, records: seq<Content>, ids: seq<Id>, now: int)
    requires |ids| == |records| > 0
    requires !HasKey(t, ContentKey, ids[0])
    ensures ImportContents(t, wsId, records, ids, now)
      == ImportContents(t + [Imported(records[0], wsId, ids[0], now)], wsId, records[1..], ids[1..], now)
  {
    var draft := ContentDraft(Some(ids[0]), records[0].pageNumber, records[0].content, records[0].styles, Some(records[0].createdAt));
    assert DraftRecord(wsId, draft, ids[0], now) == Imported(records[0], wsId, ids[0], now);
  }

  /** After the first imported record is appended, the remaining ids are still new and distinct. */
  lemma ImportStepKeepsIdsNew(t: seq<Content>, rec: Content, ids: seq<Id>)
    requires |ids| > 0 && rec.id == ids[0]
    requires Distinct(ids)
    requires forall i :: 0 <= i < |ids| ==> !HasKey(t, ContentKey, ids[i])
    ensures Distinct(ids[1..])
    ensures forall i :: 0 <= i < |ids[1..]| ==> !HasKey(t + [rec], ContentKey, ids[1..][i])
  {
    forall i | 0 <= i < |ids[1..]| ensures !HasKey(t + [rec], ContentKey, ids[1..][i]) {
      assert ids[1..][i] == ids[i + 1] != ids[0];
      assert !HasKey(t, ContentKey, ids[i + 1]);
    }
    forall i, j | 0 <= i < j < |ids[1..]| ensures ids[1..][i] != ids[1..][j] {
      assert ids[1..][i] == ids[i + 1] && ids[1..][j] == ids[j + 1];
    }
  }

  /**
   * Import then export round-trips: the new workspace's content is the input
   * list, in order, with new ids and the new workspace id, and with
   * page number, text, styles and creation time unchanged.
   */
  lemma ImportExportRoundTrip(s: Store, userId: Id, name: string, records: seq<Content>, wsId: Id, ids: seq<Id>, now: int)
    requires |ids| == |records| && Distinct(ids)
    requires wsId !in s.workspaces
    requires forall i :: 0 <= i < |s.contents| ==> s.contents[i].workspaceId != wsId
    requires forall i :: 0 <= i < |ids| ==> !HasKey(s.contents, ContentKey, ids[i])
    ensures ImportWorkspace(s, userId, name, records, wsId, ids, now).Success?
    ensures var out := ExportWorkspace(ImportWorkspace(s, userId, name, records, wsId, ids, now).value, wsId);
      && |out| == |records|
      && forall i :: 0 <= i < |out| ==> SameData(out[i], records[i]) && out[i].id == ids[i] && out[i].workspaceId == wsId
  {
    var added := ImportedAll(records, wsId, ids, now);
    ImportContentsAppends(s.contents, wsId, records, ids, now);
    var s' := ImportWorkspace(s, userId, name, records, wsId, ids, now).value;
    assert s'.contents == s.contents + added;
    FilterAppend(s.contents, added, InWorkspace(wsId));
    FilterAll(added, InWorkspace(wsId));
    FilterNone(s.contents, InWorkspace(wsId));
    assert ExportWorkspace(s', wsId) == added;
  }

  // ------------------------------------------------------------ page access

  /** `getPageContent`: the page's text and styles, or null when no record exists. */
  function GetPageContent(s: Store, wsId: Id, n: int): (r: Option<PageData>)
    ensures r.None? <==> forall i :: 0 <= i < |s.contents| ==> !(s.contents[i].workspaceId == wsId && s.contents[i].pageNumber == n)
    ensures r.Some? ==> r.value.pageNumber == n
    ensures r.Some? ==> exists c :: (c in s.contents && c.workspaceId == wsId && c.pageNumber == n
      && c.content == r.value.content && c.styles == r.value.styles)
  {
    match FindPage(s.contents, wsId, n)
    case None => None
    case Some(c) => Some(PageData(c.pageNumber, c.content, c.styles))
  }

  /**
   * `getPageData`: like `getPageContent`, but a missing record (or one for a
   * different page) yields empty default-styled data for page `n`.
   */
  function GetPageData(s: Store, wsId: Id, n: int): (r: PageData)
    ensures r.pageNumber == n
    ensures FindPage(s.contents, wsId, n).None? ==> r == PageData(n, "", DefaultStyles)
    ensures FindPage(s.contents, wsId, n).Some? ==>
      r.content == FindPage(s.contents, wsId, n).value.content && r.styles == FindPage(s.contents, wsId, n).value.styles
  {
    match FindPage(s.contents, wsId, n)
    case None => PageData(n, "", DefaultStyles)
    case Some(c) =>
      if c.pageNumber != n then PageData(n, "", DefaultStyles)
      else PageData(c.pageNumber, c.content, c.styles)
  }

  /** The content record a save writes for page `n`, given what the lookup found. */
  function PageRecord(existing: Option<Content>, wsId: Id, n: int, data: PageInput, newId: Id, now: int): Content
  {
    match existing
    case Some(c) => c.(workspaceId := wsId, pageNumber := n, content := data.content, styles := FillStyles(data.styles), updatedAt := now)
    case None => Content(newId, wsId, n, data.content, FillStyles(data.styles), now, now)
  }

  /**
   * Steps 3 to 6 of `savePageContent`: overwrite the page's existing record in
   * place, keeping its id and creation time, or put a new one under `newId`.
   */
  function WritePage(t: seq<Content>, wsId: Id, n: int, data: PageInput, newId: Id, now: int): (r: seq<Content>)
    ensures FindPage(r, wsId, n) == Some(PageRecord(FindPage(t, wsId, n), wsId, n, data, newId, now))
    ensures FindPage(t, wsId, n).Some? ==> exists i :: (0 <= i < |t| && t[i].id == FindPage(t, wsId, n).value.id
      && r == t[i := PageRecord(FindPage(t, wsId, n), wsId, n, data, newId, now)])
    ensures FindPage(t, wsId, n).None? && !HasKey(t, ContentKey, newId) ==> r == t + [Content(newId, wsId, n, data.content, FillStyles(data.styles), now, now)]
    ensures var rec := PageRecord(FindPage(t, wsId, n), wsId, n, data, newId, now);
      forall i :: 0 <= i < |t| && t[i].id != rec.id ==> t[i] in r
    ensures forall x :: x in r ==> x in t || x == PageRecord(FindPage(t, wsId, n), wsId, n, data, newId, now)
  {
    var rec := PageRecord(FindPage(t, wsId, n), wsId, n, data, newId, now);
    PutPageRecord(t, wsId, n, rec);
    PutKeepsOthers(t, ContentKey, rec);
    if FindPage(t, wsId, n).Some? then
      assert HasKey(t, ContentKey, rec.id) by {
        var c := FindPage(t, wsId, n).value;
        var i :| 0 <= i < |t| && t[i] == c;
        assert ContentKey(t[i]) == rec.id;
      }
      PutReplaces(t, ContentKey, rec);
      Put(t, ContentKey, rec)
    else
      Put(t, ContentKey, rec)
  }

  /** The put in `WritePage` leaves its record as the page's first match. */
  lemma PutPageRecord(t: seq<Content>, wsId: Id, n: int, rec: Content)
    requires rec.workspaceId == wsId && rec.pageNumber == n
    requires FindPage(t, wsId, n).Some? ==> rec.id == FindPage(t, wsId, n).value.id
    ensures FindPage(Put(t, ContentKey, rec), wsId, n) == Some(rec)
  {
    var p := OnPage(wsId, n);
    match FirstIndex(t, p)
    case None =>
      PutThenFirst(t, ContentKey, rec, p);
    case Some(m) =>
      assert t[m] == FindPage(t, wsId, n).value;
      forall j | 0 <= j < |t| && p(t[j]) ensures exists k :: 0 <= k <= j && ContentKey(t[k]) == ContentKey(rec) {
        assert m <= j && ContentKey(t[m]) == ContentKey(rec);
      }
      PutThenFirst(t, ContentKey, rec, p);
  }

  /**
   * `savePageContent`: fails when the workspace is missing; otherwise makes
   * sure `n` is in the page list, then writes the page's record with style
   * defaults filled in.
   */
  function SavePageContent(s: Store, wsId: Id, n: int, data: PageInput, newId: Id, now: int): (r: Result<Store, Error>)
    ensures wsId !in s.workspaces <==> r.Failure?
    ensures r.Failure? ==> r.error == WorkspaceNotFound
    ensures r.Success? ==> r.value.workspaces.Keys == s.workspaces.Keys
    ensures r.Success? ==> forall k :: k in s.workspaces && k != wsId ==> r.value.workspaces[k] == s.workspaces[k]
    ensures r.Success? ==> n in r.value.workspaces[wsId].pages
    ensures r.Success? && n in s.workspaces[wsId].pages ==> r.value.workspaces == s.workspaces
    ensures r.Success? && n !in s.workspaces[wsId].pages ==>
      var (w, w') := (s.workspaces[wsId], r.value.workspaces[wsId]);
      && Ascending(w'.pages)
      && multiset(w'.pages) == multiset(w.pages) + multiset{n}
      && w' == w.(pages := w'.pages)
    ensures r.Success? ==> r.value.contents == WritePage(s.contents, wsId, n, data, newId, now)
  {
    if wsId !in s.workspaces then Failure(WorkspaceNotFound)
    else
      var w := s.workspaces[wsId];
      var workspaces := if n in w.pages then s.workspaces else s.workspaces[wsId := w.(pages := AddPage(w.pages, n))];
      Success(Store(workspaces, WritePage(s.contents, wsId, n, data, newId, now)))
  }

  /** Saving a page keeps a strictly ascending page list strictly ascending. */
  lemma SavePageContentKeepsPagesStrict(s: Store, wsId: Id, n: int, data: PageInput, newId: Id, now: int)
    requires wsId in s.workspaces
    requires Ascending(s.workspaces[wsId].pages) && Distinct(s.workspaces[wsId].pages)
    ensures var w' := SavePageContent(s, wsId, n, data, newId, now).value.workspaces[wsId];
      Ascending(w'.pages) && Distinct(w'.pages)
  {
    AddPageKeepsStrict(s.workspaces[wsId].pages, n);
  }

  /** Save then get round-trips: `getPageData` returns the saved text and the filled-in styles. */
  lemma SaveThenGetPageData(s: Store, wsId: Id, n: int, data: PageInput, newId: Id, now: int)
    requires wsId in s.workspaces
    ensures GetPageData(SavePageContent(s, wsId, n, data, newId, now).value, wsId, n) == PageData(n, data.content, FillStyles(data.styles))
    ensures GetPageContent(SavePageContent(s, wsId, n, data, newId, now).value, wsId, n) == Some(PageData(n, data.content, FillStyles(data.styles)))
  {
  }

  /**
   * `savePageData`: rejects a page number that disagrees with `data` before
   * reading the store; then updates the page's record in place or adds a new
   * one. It never reads or changes the workspace's page list.
   */
  function SavePageData(s: Store, wsId: Id, n: int, data: PageInput, newId: Id, now: int): (r: Result<Store, Error>)
    ensures data.pageNumber != n <==> r == Failure(PageNumberMismatch)
    ensures r.Success? ==> r.value.workspaces == s.workspaces
    ensures r.Success? ==> FindPage(r.value.contents, wsId, n) == Some(PageRecord(FindPage(s.contents, wsId, n), wsId, n, data, newId, now))
    ensures r.Success? ==> GetPageData(r.value, wsId, n) == PageData(n, data.content, FillStyles(data.styles))
    ensures r.Failure? && data.pageNumber == n ==> r.error == KeyExists && FindPage(s.contents, wsId, n).None? && HasKey(s.contents, ContentKey, newId)
    ensures data.pageNumber == n && FindPage(s.contents, wsId, n).None? && HasKey(s.contents, ContentKey, newId) ==> r == Failure(KeyExists)
    ensures data.pageNumber == n && (FindPage(s.contents, wsId, n).Some? || !HasKey(s.contents, ContentKey, newId)) ==> r.Success?
    ensures r.Success? && FindPage(s.contents, wsId, n).None? ==> r.value.contents == s.contents + [Content(newId, wsId, n, data.content, FillStyles(data.styles), now, now)]
    ensures r.Success? && FindPage(s.contents, wsId, n).Some? ==> exists i :: (0 <= i < |s.contents|
      && s.contents[i].id == FindPage(s.contents, wsId, n).value.id
      && r.value.contents == s.contents[i := PageRecord(FindPage(s.contents, wsId, n), wsId, n, data, newId, now)])
  {
    if data.pageNumber != n then Failure(PageNumberMismatch)
    else
      var existing := FindPage(s.contents, wsId, n);
      match existing
      case Some(c) =>
        if c.pageNumber != n then Failure(ExistingPageNumberMismatch)
        else
          var rec := PageRecord(existing, wsId, n, data, newId, now);
          PutPageRecord(s.contents, wsId, n, rec);
          assert HasKey(s.contents, ContentKey, rec.id) by {
            var i :| 0 <= i < |s.contents| && s.contents[i] == c;
            assert ContentKey(s.contents[i]) == rec.id;
          }
          PutReplaces(s.contents, ContentKey, rec);
          Success(s.(contents := Put(s.contents, ContentKey, rec)))
      case None =>
        if HasKey(s.contents, ContentKey, newId) then Failure(KeyExists)
        else
          var rec := PageRecord(existing, wsId, n, data, newId, now);
          PutPageRecord(s.contents, wsId, n, rec);
          Success(s.(contents := s.contents + [rec]))
  }

  /** `savePageData` does not require the workspace to exist: it can store a page no workspace owns. */
  lemma SavePageDataIgnoresWorkspace(s: Store, wsId: Id, n: int, data: PageInput, newId: Id, now: int)
    requires wsId !in s.workspaces
    requires data.pageNumber == n
    requires !HasKey(s.contents, ContentKey, newId)
    ensures SavePageData(s, wsId, n, data, newId, now).Success?
    ensures wsId !in SavePageData(s, wsId, n, data, newId, now).value.workspaces
    ensures GetPageContent(SavePageData(s, wsId, n, data, newId, now).value, wsId, n).Some?
  {
  }

  // -------------------------------------------------------- page numbering

  /** `getTotalPages`: the highest listed page, or 1 for an empty list or a missing workspace. */
  function GetTotalPages(s: Store, wsId: Id): (r: int)
    ensures wsId !in s.workspaces || |s.workspaces[wsId].pages| == 0 ==> r == 1
    ensures wsId in s.workspaces && |s.workspaces[wsId].pages| > 0 ==>
      r in s.workspaces[wsId].pages && forall p :: p in s.workspaces[wsId].pages ==> p <= r
  {
    if wsId !in s.workspaces then 1
    else
      var pages := s.workspaces[wsId].pages;
      if |pages| > 0 then Max(pages) else 1
  }

  /** A freshly created workspace reports one page. */
  lemma CreatedWorkspaceHasOnePage(s: Store, id: Id, userId: Id, name: string, now: int)
    requires id !in s.workspaces
    ensures GetTotalPages(CreateWorkspace(s, id, userId, name, now).value.0, id) == 1
  {
  }

  /** The page number `createNewPage` allocates: one above the highest, or 1. */
  function NextPageNumber(pages: seq<int>): (r: int)
    ensures forall i :: 0 <= i < |pages| ==> pages[i] < r
    ensures |pages| == 0 ==> r == 1
    ensures |pages| > 0 ==> r - 1 in pages
  {
    (if |pages| > 0 then Max(pages) else 0) + 1
  }

  /**
   * `createNewPage`: appends the next page number to the list, stamps the
   * workspace, and initialises an empty default-styled record for the page.
   */
  function CreateNewPage(s: Store, wsId: Id, newId: Id, now: int): (r: Result<(Store, int), Error>)
    ensures wsId !in s.workspaces <==> r.Failure?
    ensures r.Failure? ==> r.error == WorkspaceNotFound
    ensures r.Success? ==> r.value.1 == NextPageNumber(s.workspaces[wsId].pages) && r.value.1 !in s.workspaces[wsId].pages
    ensures r.Success? ==> r.value.0 == SavePageContent(BumpPages(s, wsId, r.value.1, now), wsId, r.value.1, BlankPage(r.value.1), newId, now).value
  {
    if wsId !in s.workspaces then Failure(WorkspaceNotFound)
    else
      var next := NextPageNumber(s.workspaces[wsId].pages);
      match SavePageContent(BumpPages(s, wsId, next, now), wsId, next, BlankPage(next), newId, now)
      case Failure(e) => Failure(e)
      case Success(s2) => Success((s2, next))
  }

  /** The workspace update of `createNewPage`: push the new number, sort, stamp `updatedAt`. */
  function BumpPages(s: Store, wsId: Id, next: int, now: int): (r: Store)
    requires wsId in s.workspaces
    ensures wsId in r.workspaces && next in r.workspaces[wsId].pages
    ensures r.contents == s.contents
    ensures r.workspaces.Keys == s.workspaces.Keys
    ensures forall k :: k in s.workspaces && k != wsId ==> r.workspaces[k] == s.workspaces[k]
    ensures var (w, w') := (s.workspaces[wsId], r.workspaces[wsId]);
      && Ascending(w'.pages)
      && multiset(w'.pages) == multiset(w.pages) + multiset{next}
      && w' == w.(pages := w'.pages, updatedAt := now)
    ensures Distinct(s.workspaces[wsId].pages) && next !in s.workspaces[wsId].pages ==> Distinct(r.workspaces[wsId].pages)
  {
    var w := s.workspaces[wsId];
    if Distinct(w.pages) && next !in w.pages then PushSortedKeepsDistinct(w.pages, next); BumpedWorkspace(s, wsId, next, now)
    else BumpedWorkspace(s, wsId, next, now)
  }

  /** The store with `next` pushed onto the workspace's sorted page list and the workspace stamped. */
  function BumpedWorkspace(s: Store, wsId: Id, next: int, now: int): (r: Store)
    requires wsId in s.workspaces
    ensures wsId in r.workspaces && next in r.workspaces[wsId].pages
  {
    var w := s.workspaces[wsId];
    var s1 := s.(workspaces := s.workspaces[wsId := w.(pages := PushSorted(w.pages, next), updatedAt := now)]);
    assert next in multiset(s1.workspaces[wsId].pages);
    s1
  }

  /** The empty, default-styled page `createNewPage` saves. */
  function BlankPage(n: int): PageInput
  {
    PageInput(n, "", Some(AsInput(DefaultStyles)))
  }

  /**
   * `createNewPage` grows the page list by exactly the new number, keeps it
   * sorted, stamps the workspace, and leaves an empty default-styled page.
   */
  lemma CreateNewPageEffects(s: Store, wsId: Id, newId: Id, now: int)
    requires wsId in s.workspaces
    ensures var (s', next) := CreateNewPage(s, wsId, newId, now).value;
      var (w, w') := (s.workspaces[wsId], s'.workspaces[wsId]);
      && Ascending(w'.pages)
      && multiset(w'.pages) == multiset(w.pages) + multiset{next}
      && w' == w.(pages := w'.pages, updatedAt := now)
      && GetPageData(s', wsId, next) == PageData(next, "", DefaultStyles)
      && GetPageContent(s', wsId, next) == Some(PageData(next, "", DefaultStyles))
      && s'.workspaces.Keys == s.workspaces.Keys
      && (forall k :: k in s.workspaces && k != wsId ==> s'.workspaces[k] == s.workspaces[k])
      && (Distinct(w.pages) ==> Distinct(w'.pages))
    ensures var (s', next) := CreateNewPage(s, wsId, newId, now).value;
      var rec := PageRecord(FindPage(s.contents, wsId, next), wsId, next, BlankPage(next), newId, now);
      && (forall i :: 0 <= i < |s.contents| && s.contents[i].id != rec.id ==> s.contents[i] in s'.contents)
      && (forall x :: x in s'.contents ==> x in s.contents || x == rec)
  {
    var next := NextPageNumber(s.workspaces[wsId].pages);
    var s1 := BumpPages(s, wsId, next, now);
    SaveThenGetPageData(s1, wsId, next, BlankPage(next), newId, now);
    FillStylesKeepsComplete(DefaultStyles);
  }

  /** On a sorted list the new page goes at the end, and page numbers are never reused. */
  lemma CreateNewPageAppends(s: Store, wsId: Id, newId: Id, now: int)
    requires wsId in s.workspaces
    requires Ascending(s.workspaces[wsId].pages)
    ensures var (s', next) := CreateNewPage(s, wsId, newId, now).value;
      s'.workspaces[wsId].pages == s.workspaces[wsId].pages + [next]
  {
    var pages := s.workspaces[wsId].pages;
    PushSortedAppendsLargest(pages, NextPageNumber(pages));
  }

  /** `deletePageContent`: removes the page's records; nothing else changes. */
  function DeletePageContent(s: Store, wsId: Id, n: int): (r: Store)
    ensures r.workspaces == s.workspaces
    ensures forall i :: 0 <= i < |r.contents| ==> !(r.contents[i].workspaceId == wsId && r.contents[i].pageNumber == n)
    ensures forall i :: 0 <= i < |r.contents| ==> r.contents[i] in s.contents
    ensures forall i :: 0 <= i < |s.contents| && !(s.contents[i].workspaceId == wsId && s.contents[i].pageNumber == n) ==> s.contents[i] in r.contents
    ensures forall c :: multiset(r.contents)[c] == if c.workspaceId == wsId && c.pageNumber == n then 0 else multiset(s.contents)[c]
  {
    FilterCounts(s.contents, OffPage(wsId, n));
    s.(contents := Filter(s.contents, OffPage(wsId, n)))
  }

  /** Deleting a page that has no record leaves the store as it was; so deleting twice equals deleting once. */
  lemma DeletePageContentNoop(s: Store, wsId: Id, n: int)
    ensures FindPage(s.contents, wsId, n).None? ==> DeletePageContent(s, wsId, n) == s
    ensures DeletePageContent(DeletePageContent(s, wsId, n), wsId, n) == DeletePageContent(s, wsId, n)
  {
    if FindPage(s.contents, wsId, n).None? {
      FilterAll(s.contents, OffPage(wsId, n));
    }
    var once := DeletePageContent(s, wsId, n);
    FilterAll(once.contents, OffPage(wsId, n));
  }

  // ---------------------------------------------------- page verification

  /**
   * Reading `workspaceId` off the object `getPageContent` returns: that object
   * has no such field, so the read is always `undefined`.
   */
  function WorkspaceIdField(d: PageData): Option<Id>
  {
    None
  }

  /** `verifyPageContent` as written. */
  function VerifyPageContent(s: Store, wsId: Id, n: int): (r: bool)
    ensures r ==> VerifyPageContentIntended(s, wsId, n)
  {
    match GetPageContent(s, wsId, n)
    case None => false
    case Some(d) => d.pageNumber == n && WorkspaceIdField(d) == Some(wsId)
  }

  /** As written, `verifyPageContent` is false for every store, even right after the page is saved. */
  lemma VerifyPageContentNeverTrue(s: Store, wsId: Id, n: int, data: PageInput, newId: Id, now: int)
    ensures !VerifyPageContent(s, wsId, n)
    ensures wsId in s.workspaces ==> !VerifyPageContent(SavePageContent(s, wsId, n, data, newId, now).value, wsId, n)
  {
  }

  /** `verifyPageContent` as evidently intended: a record exists and matches both queried values. */
  function VerifyPageContentIntended(s: Store, wsId: Id, n: int): (r: bool)
    ensures r <==> exists i :: 0 <= i < |s.contents| && s.contents[i].workspaceId == wsId && s.contents[i].pageNumber == n
  {
    match FindPage(s.contents, wsId, n)
    case None => false
    case Some(c) => c.pageNumber == n && c.workspaceId == wsId
  }

  /** The intended check is true right after a save of that exact page, and false for a page never saved. */
  lemma VerifyIntendedAfterSave(s: Store, wsId: Id, n: int, data: PageInput, newId: Id, now: int)
    requires wsId in s.workspaces
    ensures VerifyPageContentIntended(SavePageContent(s, wsId, n, data, newId, now).value, wsId, n)
    ensures FindPage(s.contents, wsId, n).None? ==> !VerifyPageContentIntended(s, wsId, n)
  {
    var s' := SavePageContent(s, wsId, n, data, newId, now).value;
    assert FindPage(s'.contents, wsId, n).Some?;
  }
}

=== FILE: wrappers.dfy ===
/** Optional values and success-or-error results, shared by every module. */
module Wrappers {

  /** A value that may be absent: `undefined`/`null` in the application. */
  datatype Option<+T> = None | Some(value: T)
  {
    /** The carried value, or `default` when absent. */
    function GetOr(default: T): T
    {
      match this
      case Some(v) => v
      case None => default
    }
  }

  /** The outcome of an operation that either resolves with a value or rejects with an error. */
  datatype Result<+T, +E> = Success(value: T) | Failure(error: E)
}
